=== FILE: README.md ===
# Trade-Pulse core in Dafny

Trade-Pulse is a stock-trading sandbox. Its pieces are:

- a batch moving-average crossover strategy over historical prices;
- a simulated price feed that pushes random-walk prices to websocket clients;
- a monitoring client that alerts on sudden moves;
- a browser dashboard that keeps recent prices and alerts;
- a trade-entry schema.

This project models the logic of those pieces as pure Dafny functions over immutable data and proves properties about them. It covers:

- **Signals** and **Accounting** (utils.py): the simple moving average, crossover detection, and the single-unit profit/loss machine.
- **PriceTracking** (utils.py): `calculate_percentage_change` and the `PriceTracker` windows.
- **Strategy** (trading_strategy.py): the constructor, table validation with forward fill, per-ticker signal generation and the profit/loss report.
- **Broadcast** (websocket_server_simple.py): the client registry, the snapshot sent on registration, broadcast fan-out with removal of failed clients, the price step and subscribe replies.
- **MonitorClient** (websocket_client.py): message dispatch into the tracker, the notification gate and the bounded reconnect loop.
- **Dashboard** (static/app.js): quote records, the ten-minute history, the 2% alert rule, the alert list capped at 50 and the reconnect counter.
- **TradeSchema** (schemas.py): `TradeCreate` field constraints and validators.
- **Settings** (config.py) holds the configuration constants. **Prelude** holds `Option`, `Result`, sums and Python's `round(v, 2)`.

Conventions:

- An undefined value (NaN, None, undefined) is `None`.
- A raised error is `Err`.
- Clocks, random draws and send failures are parameters.
- Python datetimes are whole microseconds and JavaScript Dates are whole milliseconds.

Notes on what the code does:

- `broadcast_price_update` does not update the server's price map; the generation loop does that before broadcasting. With no clients it also skips the store.
- The client's threshold setting is 0.02, which the code compares against a percentage. See Findings.
- `calculate_moving_average` with a period below 1 yields NaN at every index, because numpy's mean of an empty slice is NaN.
- The forward fill in `load_historical_data` runs over the whole price column after sorting. A gap at the start of one ticker's rows therefore takes the previous ticker's last price, and a gap at the very top stays NaN and passes the positivity check.

## Model

| member | source | states |
|---|---|---|
| Prelude.Round2 | schemas.py:21 | the rounded price is a whole number of cents within half a cent of the input |
| Prelude.Round2Idempotent | schemas.py:21 | rounding an amount already rounded to cents leaves it unchanged |
| Prelude.Round2Positive | schemas.py:21 | an amount of at least one cent rounds to at least one cent |
| Signals.MovingAverage | utils.py:11-23 | one entry per price; all undefined when the series is shorter than the period or the period is below 1; otherwise entry i is defined exactly when i ≥ period−1, and is then the mean of the `period` prices ending at i |
| Signals.MovingAverageSlides | utils.py:17-21 | consecutive defined averages obey the sliding-window recurrence p·ma[i] = p·ma[i−1] + price[i] − price[i−p] |
| Signals.MovingAverageOfConstant | utils.py:17-21 | over a constant series every defined average equals that constant |
| Signals.DetectCrossover | utils.py:25-43 | one signal per index (a single HOLD for an empty input); index 0 is HOLD; BUY at i exactly when all four averages are defined and short moves from ≤ long to > long; SELL exactly on the mirror move; an undefined average gives HOLD |
| Signals.BuyAndSellExclusive | utils.py:35-39 | no index meets both the BUY and the SELL condition |
| Signals.CrossoverSwapMirrors | utils.py:35-39 | exchanging the two series turns every BUY into a SELL and every SELL into a BUY |
| Signals.CrossoverExample | utils.py:25-43 | short [1,1,1,3,3] against long 2 gives HOLD, HOLD, HOLD, BUY, HOLD |
| Accounting.Step | utils.py:56-82 | HOLD changes nothing, and so does a BUY while long or a SELL while short. From a valid position, BUY ends long and SELL ends short. A close books the realized amount and adds one win if it is positive, otherwise one loss. Without a close no counter or total moves. A position change resets the cost basis to the trade price |
| Accounting.CalculateProfitLoss | utils.py:45-84 | the triple is the total, wins and losses of the ledger after the trade loop from a flat start; an empty list gives (0, 0, 0); wins plus losses never exceed the BUY/SELL entries, and stay strictly below them when there is one; without a win the total is ≤ 0, and without a loss it is ≥ 0 |
| Accounting.RunBounds | utils.py:56-82 | the position stays in {−1, 0, 1}, and closes plus the open position grow by at most one per BUY/SELL entry |
| Accounting.RunLeavesFlat | utils.py:56-82 | after the first BUY or SELL the position is never flat again |
| Accounting.RunPnlSign | utils.py:62-80 | a total with no winning close is ≤ 0 and one with no losing close is ≥ 0, because a zero close counts as a loss |
| Accounting.RunAppend | utils.py:56-82 | processing a concatenation is processing the first part and continuing with the second |
| Accounting.HoldsIgnored | utils.py:57-70 | dropping every entry that is neither BUY nor SELL leaves the final ledger unchanged |
| Accounting.RepeatedSignalIsNoOp | utils.py:57-82 | a BUY while long, or a SELL while short, leaves the whole ledger unchanged, cost basis included; hence repeating a trade at once changes nothing |
| Accounting.RepeatedBuyExample | utils.py:57-82 | BUY@100, BUY@90, SELL@110 books 10 with one winner: the second BUY neither re-enters nor moves the cost basis |
| Accounting.ProfitLossExample | utils.py:45-84 | BUY@100, SELL@110, BUY@105 gives a total of 15 with two winning closes and no losing one |
| PriceTracking.PercentageChange | utils.py:90-94 | 0 when the old price is 0; otherwise the change times the old price is 100 times the price difference |
| PriceTracking.PercentageChangeSign | utils.py:90-94 | from a positive old price the change is positive, zero or negative exactly as the price rises, stays or falls |
| PriceTracking.NewTracker | utils.py:99-101 | a new tracker has the given threshold and no history |
| PriceTracking.SinceMembers | utils.py:115-117 | a point survives the cut-off filter iff it was in the window and is no older than the cut-off |
| PriceTracking.SinceConcat | utils.py:115-117 | the filter distributes over concatenation, so it keeps insertion order |
| PriceTracking.AddPrice | utils.py:103-117 | the ticker's new window is the old window's points no older than one hour before the inserted timestamp, followed by the new point; a missing timestamp means now; other tickers and the threshold are unchanged |
| PriceTracking.CheckSignificantChange | utils.py:119-140 | a significant change needs the ticker to hold at least two points |
| PriceTracking.RecentEnds | utils.py:128-137 | the last-minute sub-window has two or more points exactly when the first and last recent indices differ, and then it runs from the first to the last |
| PriceTracking.CheckSignificantChangeSpec | utils.py:119-140 | significant iff the ticker is tracked, the first recent index lies strictly before the last, and the change between those two prices reaches the threshold in absolute value |
| Strategy.OrDefault | trading_strategy.py:15-16 | a None or zero argument yields the default; any other value is kept |
| Strategy.NewStrategy | trading_strategy.py:14-19 | falsy periods take the configured 50 and 200; the result is refused iff the short period is not below the long one |
| Strategy.NewStrategyExamples | trading_strategy.py:14-19 | absent or zero arguments give (50, 200); a short period of 200 is refused; a negative short period is accepted |
| Strategy.MissingFrom | trading_strategy.py:27-28 | exactly the required columns absent from the table are listed |
| Strategy.FillFrom | trading_strategy.py:40-42 | present values are kept; each missing value takes the previous filled value (or the carried-in one at the start) |
| Strategy.ForwardFill | trading_strategy.py:40-42 | present values are kept, a leading missing value stays missing, and any other missing value repeats the previous filled one |
| Strategy.ForwardFillKeepsPositive | trading_strategy.py:40-45 | forward filling neither creates nor removes a non-positive price |
| Strategy.FillFromLeadingGaps | trading_strategy.py:40-42 | a value is still missing after the fill iff every value up to it was missing |
| Strategy.LoadHistoricalData | trading_strategy.py:21-52 | loads iff every required column is present and every present price is positive, and fails only for those two reasons; refused with the missing columns iff a required column is absent, otherwise for non-positive prices; on success each row keeps its ticker and date and carries the forward-filled price of its position, so present prices are kept and every filled price is positive |
| Strategy.Distinct | trading_strategy.py:59 | the distinct tickers, each once, exactly those occurring, in order of first appearance |
| Strategy.ActionIndices | trading_strategy.py:76-77 | exactly the indices holding BUY or SELL, in increasing order |
| Strategy.SignalsFor | trading_strategy.py:66-88 | one record per BUY/SELL index, in index order, carrying that index's signal, price and date; index 0 never appears and no record is HOLD |
| Strategy.SignalsForAverages | trading_strategy.py:66-88 | each record carries the short and long moving averages defined at its row, as computed over the ticker's prices |
| Strategy.SignalsInRowOrder | trading_strategy.py:75-86 | earlier records come from earlier rows |
| Strategy.Eligible | trading_strategy.py:62-64 | the kept tickers are exactly those with at least long-period rows, without duplicates |
| Strategy.CalculateSignals | trading_strategy.py:54-95 | one entry per distinct ticker with at least long-period rows and for no other ticker; no ticker twice; each entry holds the signals of that ticker's own rows |
| Strategy.CalculateSignalsOrder | trading_strategy.py:59-90 | the entries follow the order in which their tickers first appear in the table |
| Strategy.CalculateSignalsContents | trading_strategy.py:76-88 | every emitted record is a BUY or SELL of its entry's ticker |
| Strategy.WinRate | trading_strategy.py:118-119 | with at least one close, the rate times the number of closes is 100 times the wins; it lies in [0, 100], is 100 iff there are wins and no losses, and is 0 iff there are no wins |
| Strategy.ReportFor | trading_strategy.py:107-130 | total_trades is the number of signals, strictly above wins plus losses; the P&L triple is the one `calculate_profit_loss` gives for the signals, and the win rate is computed from that triple's wins and losses |
| Strategy.GenerateReport | trading_strategy.py:97-145 | the k-th report is the report for the k-th entry with a non-empty signal list, so the reports follow entry order; each win rate is in [0, 100] |
| Strategy.GenerateReportMembers | trading_strategy.py:102-132 | an entry has a report iff its signal list is non-empty, and each report is the one built from its own ticker and signals |
| Broadcast.TickersDistinct | config.py:21 | the simulated tickers are pairwise distinct |
| Broadcast.NewServer | websocket_server_simple.py:15-18 | no clients and one price in [100, 500] for exactly the simulated tickers |
| Broadcast.Snapshot | websocket_server_simple.py:26-32 | one price_update per ticker carrying its price rounded to cents |
| Broadcast.Register | websocket_server_simple.py:20-36 | the client is registered before any send; it receives a prefix of the snapshot, ending just before the failing send when that send exists and the whole snapshot otherwise; prices are untouched |
| Broadcast.Unregister | websocket_server_simple.py:38-41 | the client is gone and no other client changes |
| Broadcast.UnregisterIdempotent | websocket_server_simple.py:38-41 | discarding twice is discarding once |
| Broadcast.RegisterThenUnregister | websocket_server_simple.py:20-41 | registering a new client and unregistering it restores the server |
| Broadcast.BroadcastPrice | websocket_server_simple.py:43-68 | with no clients nothing happens, not even the store. Otherwise the price is stored, a send is attempted to every client, exactly the non-failing clients receive it and stay, and the failing ones are removed. The message carries the price rounded to cents. The price map is untouched |
| Broadcast.BroadcastOnlyDropsFailures | websocket_server_simple.py:59-68 | a broadcast removes exactly the failing clients and adds none |
| Broadcast.PriceStep | websocket_server_simple.py:95-100 | the stepped price is the drawn move or the floor 1.0, whichever is larger |
| Broadcast.PriceStepBounded | websocket_server_simple.py:94-100 | from a price of at least 1.0, one step stays within 5% of it |
| Broadcast.UpdateTicker | websocket_server_simple.py:93-105 | only the ticker's price changes, it stays ≥ 1.0, and the broadcast carries it rounded to cents |
| Broadcast.Round | websocket_server_simple.py:88-106 | after stepping the first n tickers, each of them holds exactly the step of its old price by its drawn change, the rest are as they were, every ticker stays priced, and no client is added |
| Broadcast.HandleClientMessage | websocket_server_simple.py:118-140 | a reply exists iff the message is a subscribe for a simulated ticker, and then confirms that ticker's price rounded to cents |
| Broadcast.Replies | websocket_server_simple.py:118-135 | one reply per subscribe message for a simulated ticker and none otherwise; each confirms its ticker at the current time with the stored price rounded to cents |
| Broadcast.RepliesSingle | websocket_server_simple.py:118-135 | a single message gets the handler's confirmation iff it is such a subscribe, and no reply otherwise |
| Broadcast.RepliesConcat | websocket_server_simple.py:114-135 | the replies to a concatenation are the replies to the first part followed by those to the second, so replies keep message order |
| Broadcast.HandleClient | websocket_server_simple.py:114-145 | the client received the snapshot up to the failing send, all of it when no send failed; the replies are exactly those to its messages; afterwards it is unregistered, and the other clients and the prices are as before |
| Broadcast.DeliveredCount | websocket_server_simple.py:43-68 | a client receives at most one message per broadcast, and none if it was not registered |
| Broadcast.FanOutExample | websocket_server_simple.py:59-68 | with clients 1, 2 and 3 and client 2 failing on the third of five broadcasts, clients 1 and 3 receive five messages and client 2 receives two |
| MonitorClient.ConfiguredClientTracker | websocket_client.py:13 | the client's tracker is built with the configured threshold 0.02 |
| MonitorClient.NewClientTracker | websocket_client.py:13 | the client's tracker with the intended threshold of 2 percent |
| MonitorClient.NotifySignificantChange | websocket_client.py:101-128 | an alert is raised iff the ticker holds at least two points in the last 60 seconds and the change from the first of them to the current price reaches the threshold in absolute value; it carries both prices and points up iff the change is positive |
| MonitorClient.HandleMessage | websocket_client.py:67-99 | only a price_update with a non-empty ticker, a price and a timestamp reaches the tracker, as one add_price call; any other message changes nothing; an alert is raised only after the tracker reports a significant change, and then it is exactly the notification `notify_significant_change` builds for the message's ticker and price |
| MonitorClient.HandleMessageAddsOnePoint | websocket_client.py:77-82 | a usable update leaves its point last in the ticker's window and no other ticker changes |
| MonitorClient.HandleMessageAlertsOnRecentMove | websocket_client.py:77-86 | for a usable update stamped within the last minute, an alert is raised iff the tracker, after storing the point, reports a significant change |
| MonitorClient.Monitor | websocket_client.py:17-65 | the retry counter never exceeds 5 and the loop gives up exactly when it reaches 5; a ConnectionClosed ends the loop with the counter at 0, an InvalidURI ends it too, and giving up needs enough failing attempts at the end |
| MonitorClient.MonitorStopsAndSleeps | websocket_client.py:44-65 | only the last consumed attempt can be a ConnectionClosed or InvalidURI, and none is consumed unless the loop ended on one; one 5-second sleep follows each failure except the one that makes it give up |
| MonitorClient.GiveUpAfterFiveFailures | websocket_client.py:51-65 | from a fresh start, giving up means the five attempts just before were all failures |
| MonitorClient.RefusalsAccumulate | websocket_client.py:51-55 | refusals below the limit only raise the counter, to the given final value, with one 5-second sleep each; the rest of the run is unchanged |
| MonitorClient.MonitorGivesUpAfterFiveRefusals | websocket_client.py:51-58 | five refusals from a fresh start end the loop after four sleeps |
| MonitorClient.MonitorSessionResets | websocket_client.py:26-29 | a successful connection between failures resets the count: after four refusals, a session and four more refusals the loop has not given up and continues, whatever comes next, exactly as from a counter of 4, with eight sleeps and nine attempts behind it |
| MonitorClient.ConfiguredThresholdAlertsOnTinyMove | config.py:13 | with the configured threshold, a 0.05% rise within ten seconds raises an alert |
| MonitorClient.IntendedThresholdIgnoresTinyMove | config.py:13 | with the intended threshold, the same move raises nothing |
| MonitorClient.IntendedAlertsAreTwoPercent | websocket_client.py:115 | with the intended threshold, every alert reports a move of at least 2% |
| Dashboard.JsChange | static/app.js:161 | finite for a non-zero old price; for a zero old price, +∞, −∞ or NaN as the current price is positive, negative or zero |
| Dashboard.JsChangeAgreesWithPercentageChange | static/app.js:161 | for a non-zero old price the dashboard's change equals the tracker's percentage change |
| Dashboard.SignificantFromPositive | static/app.js:163-165 | from a positive old price, an alert fires iff the move is at least 2% and is marked up iff the price rose |
| Dashboard.SinceNested | static/app.js:141-157 | cutting the ten-minute history to the last minute equals cutting the full history to the last minute |
| Dashboard.CheckPriceAlert | static/app.js:151-173 | no alert without two history points or without two points newer than a minute ago; otherwise an alert iff the change from the first recent price to the current one is significant, carrying both prices and marked up iff the change is positive |
| Dashboard.AddAlert | static/app.js:175-190 | the new alert is first, followed by the previous alerts in order, and the list is cut to 50 |
| Dashboard.AddAlertsKeepsNewestFifty | static/app.js:182-187 | after any run of additions the list is the newest alerts first, then the older list, cut to 50 |
| Dashboard.UpdateStockPrice | static/app.js:128-149 | the ticker's quote holds the new price and timestamp with the whole previous record, or none on the first update; every kept history point is newer than ten minutes ago; other tickers are unchanged; an alert is added iff `checkPriceAlert` raises one on the new history |
| Dashboard.UpdateStockPriceHistory | static/app.js:137-142 | the new history holds exactly the old points and the new point that are newer than ten minutes ago, with the new point last when it is kept |
| Dashboard.AlertComparesEnds | static/app.js:157-163 | when the current price closes the minute window, the alert compares the first and last prices of that minute |
| Dashboard.UpdateAlertComparesMinuteEnds | static/app.js:137-163 | after an update stamped within the last minute, the alert compares the first and last prices of the last minute of the untrimmed history, as `PriceTracker.check_significant_change` does |
| Dashboard.OnOpen | static/app.js:54-60 | opening connects and resets the attempt counter to 0 |
| Dashboard.OnError | static/app.js:66-79 | an error disconnects; a retry is scheduled iff fewer than 5 attempts were made, and it increments the counter; the counter never passes 5 |
| Dashboard.StreamBounded | static/app.js:54-79 | over any sequence of opens and errors the counter stays ≤ 5; without an open, each scheduled reconnect is one counted attempt |
| Dashboard.FailuresSaturate | static/app.js:72-78 | each error raises the counter by one until it reaches 5 |
| Dashboard.FiveReconnectsFromFresh | static/app.js:72-78 | a fresh dashboard that keeps failing schedules exactly five reconnects |
| TradeSchema.Strip | schemas.py:15 | the result is an infix of the input with only whitespace before and after it, neither starting nor ending with whitespace |
| TradeSchema.StripTrimmed | schemas.py:15 | a string without surrounding whitespace strips to itself |
| TradeSchema.NormalizeTicker | schemas.py:13-15 | the ticker validator's output has no lower-case letter and no surrounding whitespace |
| TradeSchema.NormalizeTickerIdempotent | schemas.py:13-15 | normalising twice is normalising once |
| TradeSchema.NormalizeTickerKeepsCanonical | schemas.py:13-15 | an upper-case ticker without surrounding whitespace is returned unchanged |
| TradeSchema.NormalizeTickerExample | schemas.py:13-15 | " aapl\n" becomes "AAPL" |
| TradeSchema.ParseSide | schemas.py:10 | only "buy" and "sell" name a side |
| TradeSchema.RawFailures | schemas.py:7-10 | a field fails iff its raw value breaks its constraint: ticker length outside 1..10, price ≤ 0, quantity ≤ 0, unknown side |
| TradeSchema.Validate | schemas.py:6-27 | refused iff some raw field fails, listing every failing field; otherwise the ticker is normalised, the price rounded to cents, and quantity, side and timestamp kept (a missing timestamp stays None) |
| TradeSchema.BlankTickerAccepted | schemas.py:7-15 | a ticker of two blanks passes and is stored as the empty string |
| TradeSchema.SubCentPriceAccepted | schemas.py:8-21 | a price of 0.004 passes and is stored as 0.0 |
| TradeSchema.ValidateChecked | schemas.py:6-27 | every accepted trade has a ticker of 1 to 10 characters, a positive price and a positive quantity, with the validators' rewrites applied |
| TradeSchema.ValidateCheckedStable | schemas.py:6-27 | an accepted trade validates again to itself |
| TradeSchema.ValidationsAgreeOnCanonicalInput | schemas.py:6-27 | on input the validators would not change, both validations agree |
| TradeSchema.CheckedRejectsCounterexamples | schemas.py:7-21 | the corrected validation refuses the blank ticker and the sub-cent price |

## Left out

- I/O of every kind is left out: CSV reading, SQL storage, JSON encoding, websocket and SSE transport, logging, console output, DOM rendering and toasts. Each is replaced by the data it yields, or by a parameter for which sends fail.
- asyncio scheduling, sleeps and `setTimeout` are left out. Sleeps are counted, not taken. Concurrent interleavings, such as a client joining during a broadcast, are not modelled.
- The clock and the random draws (`random.uniform` for starting prices, steps and delays) are parameters. Each operation reads the clock once, as the value `now`. The source reads it more often: `notify_significant_change` once per history element, `register_client` once per snapshot message, and the dashboard once per `Date.now()` call. These readings differ only by the time the code takes to run.
- Floating-point arithmetic is modelled on exact reals. `round(v, 2)` is modelled as half-even on the exact value, not on its binary representation. JavaScript's infinities and NaN are modelled only where a zero old price produces them.
- The pandas steps are not modelled: date parsing and the sort by (ticker, date). The loaded table is taken as already sorted.
- Strategy.CalculateSignals takes rows with present prices. The leading-gap NaN that `load_historical_data` can leave behind is not carried into signal generation.
- The `run_strategy` composition and `print_detailed_report` are left out. They only chain and print the modelled steps.
- main.py is left out: the FastAPI routes, the database queries, the SSE generator, the lifespan hooks and the duplicated random walk.
- models.py (the ORM tables) is left out, apart from the two trade-side values.
- Pydantic details are left out: type coercion, missing or extra fields, and the error message text. Only the constraints and validators of `TradeCreate` are modelled. `TradingSignal` and `ProfitLossReport` appear as the record types of the strategy.
- TradeSchema.NormalizeTicker: upper-casing covers ASCII letters and stripping covers whitespace below U+0100. The rest of Unicode case mapping and whitespace is not modelled.
- MonitorClient.HandleMessage: an unparseable timestamp and a missing one both appear as `None`. A non-string ticker is not modelled.
- MonitorClient.HandleMessage: timestamps are integers without a time zone. In the source, a timestamp ending in `Z` or carrying an offset parses to an aware datetime (websocket_client.py:79). `check_significant_change` then compares it with the naive `datetime.now()` and raises TypeError, which `handle_message` swallows. So the source never alerts on such an update, and later updates of that ticker fail in `add_price`'s hour filter. The model treats every timestamp alike and can alert. The server's own messages carry naive timestamps.
- Signals.DetectCrossover: requires the long series to be at least as long as the short one whenever there are two or more points. The source is more lenient. Its `or` short-circuits, so it reads the long series at index i only when the short average at i is defined. It raises IndexError only when a defined short average lies at or past the end of the long series. A shorter long series facing an undefined short tail, such as two undefined short averages against an empty long series, gives all HOLD there, and the model does not cover that input. The only caller computes both averages over the same prices, so their lengths are always equal there.
- MonitorClient.Monitor: the model stops with `OutOfAttempts` when the given attempt outcomes run out. The source loop would go on.
- Broadcast.Round: covers one pass over the tickers. The endless outer loop and its error recovery are not modelled.
- Dashboard.UpdateStockPrice: an invalid date (NaN time) is not modelled. Timestamps are integers.

## Findings

| source | as written | input that shows it | evidently intended | confidence | as-written member | corrected member |
|---|---|---|---|---|---|---|
| schemas.py:7-15 | the length 1–10 constraint is checked on the raw ticker, before the validator strips it | ticker "  " is accepted and stored as "" | the stored ticker has 1 to 10 characters | not executed; medium (field constraints run before the validator) | TradeSchema.BlankTickerAccepted | TradeSchema.ValidateChecked |
| schemas.py:8-21 | positivity is checked before rounding to cents | price 0.004 is accepted and stored as 0.0 | the stored price is positive | not executed; medium | TradeSchema.SubCentPriceAccepted | TradeSchema.ValidateChecked |
| config.py:13 | the threshold 0.02 is compared with a percentage in both client gates | a move from 100.00 to 100.05 (0.05%) within ten seconds alerts | a 2% threshold, as the setting's comment at config.py:13, the tracker's default (utils.py:99) and the dashboard use; against this, the start-up message at websocket_client.py:135 announces the value as "0.02%" | not executed; medium (config.py:13 and websocket_client.py:135 disagree on the unit) | MonitorClient.ConfiguredThresholdAlertsOnTinyMove | MonitorClient.NewClientTracker |

=== FILE: accounting.dfy ===
/**
 The single-unit position machine of `calculate_profit_loss` in utils.py.
 A ledger holds a position of -1 (short), 0 (flat) or 1 (long), the cost
 basis of the open position, the realized profit/loss and the win/loss
 counters. Only BUY and SELL entries act; anything else is skipped.
 */
module Accounting {
  import opened Prelude
  import opened Signals

  /** One entry of the trade list: its signal and the price it was taken at. */
  datatype Trade = Trade(signal: Signal, price: real)

  datatype Ledger = Ledger(position: int, avgCost: real, totalPnl: real, winning: nat, losing: nat)

  /** The ledger before the first trade. */
  const Start := Ledger(0, 0.0, 0.0, 0, 0)

  predicate ValidPosition(l: Ledger) {
    -1 <= l.position <= 1
  }

  /** The trade closes the open position: a BUY covering a short or a SELL selling a long. */
  predicate Closes(l: Ledger, t: Trade) {
    (t.signal == Buy && l.position < 0) || (t.signal == Sell && l.position > 0)
  }

  /** The trade asks for the position already held: a BUY while long or a SELL while short. */
  predicate Repeats(l: Ledger, t: Trade) {
    (t.signal == Buy && l.position == 1) || (t.signal == Sell && l.position == -1)
  }

  /** Profit or loss booked when `t` closes the open position. */
  function Realized(l: Ledger, t: Trade): real
    requires Closes(l, t)
  {
    if t.signal == Buy then (l.avgCost - t.price) * (AbsInt(l.position) as real)
    else (t.price - l.avgCost) * (l.position as real)
  }

  /** Number of BUY and SELL entries. */
  function Actions(trades: seq<Trade>): (n: nat)
    ensures n <= |trades|
  {
    if |trades| == 0 then 0
    else Actions(trades[..|trades| - 1]) + (if trades[|trades| - 1].signal == Hold then 0 else 1)
  }

  /** One iteration of the trade loop. */
  function Step(l: Ledger, t: Trade): (r: Ledger)
    ensures t.signal == Hold ==> r == l
    ensures ValidPosition(l) ==> ValidPosition(r)
    ensures ValidPosition(l) && t.signal == Buy ==> r.position == 1
    ensures ValidPosition(l) && t.signal == Sell ==> r.position == -1
    ensures l.position != 0 ==> r.position != 0
    ensures r.winning + r.losing == l.winning + l.losing + (if Closes(l, t) then 1 else 0)
    ensures Closes(l, t) ==> r.totalPnl == l.totalPnl + Realized(l, t)
    ensures Closes(l, t) ==> r.winning == l.winning + (if Realized(l, t) > 0.0 then 1 else 0)
    ensures Closes(l, t) ==> r.losing == l.losing + (if Realized(l, t) > 0.0 then 0 else 1)
    ensures !Closes(l, t) ==> r.totalPnl == l.totalPnl && r.winning == l.winning && r.losing == l.losing
    ensures r.position != l.position ==> r.avgCost == t.price
    ensures ValidPosition(l) && Repeats(l, t) ==> r == l
  {
    match t.signal
    case Buy =>
      if l.position == 0 then l.(position := 1, avgCost := t.price)
      else if l.position < 0 then
        var pnl := Realized(l, t);
        var l' := if pnl > 0.0 then l.(winning := l.winning + 1) else l.(losing := l.losing + 1);
        l'.(totalPnl := l.totalPnl + pnl, position := 1, avgCost := t.price)
      else l
    case Sell =>
      if l.position == 0 then l.(position := -1, avgCost := t.price)
      else if l.position > 0 then
        var pnl := Realized(l, t);
        var l' := if pnl > 0.0 then l.(winning := l.winning + 1) else l.(losing := l.losing + 1);
        l'.(totalPnl := l.totalPnl + pnl, position := -1, avgCost := t.price)
      else l
    case Hold => l
  }

  /** The trade loop: `Step` applied to every entry in order. */
  function Run(l: Ledger, trades: seq<Trade>): Ledger
  {
    if |trades| == 0 then l else Step(Run(l, trades[..|trades| - 1]), trades[|trades| - 1])
  }

  /**
   The result of `calculate_profit_loss`: total realized profit/loss, the
   number of winning closes and the number of losing closes.
   */
  function CalculateProfitLoss(trades: seq<Trade>): (r: (real, nat, nat))
    ensures |trades| == 0 ==> r == (0.0, 0, 0)
    ensures r.1 + r.2 <= Actions(trades)
    ensures Actions(trades) > 0 ==> r.1 + r.2 < Actions(trades)
    ensures r.1 == 0 ==> r.0 <= 0.0
    ensures r.2 == 0 ==> r.0 >= 0.0
    ensures r == (Run(Start, trades).totalPnl, Run(Start, trades).winning, Run(Start, trades).losing)
  {
    if |trades| == 0 then (0.0, 0, 0)
    else
      var f := Run(Start, trades);
      RunBounds(Start, trades);
      RunPnlSign(Start, trades);
      RunLeavesFlat(Start, trades);
      (f.totalPnl, f.winning, f.losing)
  }

  /**
   The position stays in {-1, 0, 1}, and each close, like the open
   position itself, is paid for by one BUY/SELL entry.
   */
  lemma {:induction false} RunBounds(l: Ledger, trades: seq<Trade>)
    requires ValidPosition(l)
    ensures ValidPosition(Run(l, trades))
    ensures var r := Run(l, trades);
            r.winning + r.losing + AbsInt(r.position)
              <= l.winning + l.losing + AbsInt(l.position) + Actions(trades)
  {
    if |trades| > 0 {
      RunBounds(l, trades[..|trades| - 1]);
    }
  }

  /** Once a BUY or SELL has been seen the ledger is never flat again. */
  lemma {:induction false} RunLeavesFlat(l: Ledger, trades: seq<Trade>)
    requires ValidPosition(l)
    ensures l.position != 0 ==> Run(l, trades).position != 0
    ensures Actions(trades) > 0 ==> Run(l, trades).position != 0
  {
    if |trades| > 0 {
      var init := trades[..|trades| - 1];
      RunLeavesFlat(l, init);
      RunBounds(l, init);
    }
  }

  /**
   With no winning close the total cannot be positive, and with no losing
   close it cannot be negative (a zero close is a losing one).
   */
  lemma {:induction false} RunPnlSign(l: Ledger, trades: seq<Trade>)
    requires l.winning == 0 ==> l.totalPnl <= 0.0
    requires l.losing == 0 ==> l.totalPnl >= 0.0
    ensures Run(l, trades).winning == 0 ==> Run(l, trades).totalPnl <= 0.0
    ensures Run(l, trades).losing == 0 ==> Run(l, trades).totalPnl >= 0.0
  {
    if |trades| > 0 {
      RunPnlSign(l, trades[..|trades| - 1]);
    }
  }

  /** Processing a list in two parts is processing it whole. */
  lemma {:induction false} RunAppend(l: Ledger, a: seq<Trade>, b: seq<Trade>)
    ensures Run(l, a + b) == Run(Run(l, a), b)
  {
    if |b| == 0 {
      assert a + b == a;
    } else {
      RunAppend(l, a, b[..|b| - 1]);
      assert (a + b)[..|a + b| - 1] == a + b[..|b| - 1];
    }
  }

  /** Non-BUY/SELL entries do not matter: dropping them changes nothing. */
  function WithoutHolds(trades: seq<Trade>): (r: seq<Trade>)
    ensures forall k :: 0 <= k < |r| ==> r[k].signal != Hold
  {
    if |trades| == 0 then []
    else WithoutHolds(trades[..|trades| - 1])
         + (if trades[|trades| - 1].signal == Hold then [] else [trades[|trades| - 1]])
  }

  lemma {:induction false} HoldsIgnored(l: Ledger, trades: seq<Trade>)
    ensures Run(l, WithoutHolds(trades)) == Run(l, trades)
  {
    if |trades| > 0 {
      var init := trades[..|trades| - 1];
      var last := trades[|trades| - 1];
      HoldsIgnored(l, init);
      if last.signal != Hold {
        RunAppend(l, WithoutHolds(init), [last]);
        assert [last][..0] == [];
      } else {
        assert WithoutHolds(trades) == WithoutHolds(init) + [];
        assert WithoutHolds(init) + [] == WithoutHolds(init);
      }
    }
  }

  /**
   A BUY while long, or a SELL while short, is a no-op: the loop has no
   branch for it, so neither the cost basis nor any counter moves. In
   particular a BUY or SELL repeated at once changes nothing.
   */
  lemma RepeatedSignalIsNoOp(l: Ledger, t: Trade)
    requires ValidPosition(l)
    ensures Repeats(l, t) ==> Step(l, t) == l
    ensures Step(Step(l, t), t) == Step(l, t)
  {
  }

  /** The second BUY of BUY@100, BUY@90, SELL@110 is ignored, so the close books 110 - 100. */
  lemma RepeatedBuyExample()
    ensures CalculateProfitLoss([Trade(Buy, 100.0), Trade(Buy, 90.0), Trade(Sell, 110.0)]) == (10.0, 1, 0)
  {
    var t := [Trade(Buy, 100.0), Trade(Buy, 90.0), Trade(Sell, 110.0)];
    assert t[..2][..1] == [Trade(Buy, 100.0)];
    assert t[..2] == [Trade(Buy, 100.0), Trade(Buy, 90.0)];
    assert Run(Start, t[..1]) == Ledger(1, 100.0, 0.0, 0, 0);
    assert Run(Start, t[..2]) == Ledger(1, 100.0, 0.0, 0, 0);
  }

  /** BUY@100, SELL@110, BUY@105 books 10 + 5 with two winners. */
  lemma ProfitLossExample()
    ensures CalculateProfitLoss([Trade(Buy, 100.0), Trade(Sell, 110.0), Trade(Buy, 105.0)]) == (15.0, 2, 0)
  {
    var t := [Trade(Buy, 100.0), Trade(Sell, 110.0), Trade(Buy, 105.0)];
    assert t[..2][..1] == [Trade(Buy, 100.0)];
    assert t[..2] == [Trade(Buy, 100.0), Trade(Sell, 110.0)];
    assert Run(Start, t[..1]) == Ledger(1, 100.0, 0.0, 0, 0);
    assert Run(Start, t[..2]) == Ledger(-1, 110.0, 10.0, 1, 0);
  }
}

=== FILE: broadcast.dfy ===
/**
 The price server of websocket_server_simple.py: a set of connected
 clients and the latest price per ticker, with registration, broadcast
 fan-out, the random-walk price step and subscribe replies.
 Sends do not happen here: each operation takes the clients whose send
 fails as a parameter and reports who was sent what. Times are whole
 microseconds and `now` is a parameter.
 */
module Broadcast {
  import opened Prelude
  import Settings

  /** A connected client socket. */
  type ClientId = nat

  datatype MessageKind = PriceUpdate | SubscriptionConfirmed

  /** An outgoing JSON message. */
  datatype OutMessage = OutMessage(kind: MessageKind, ticker: string, price: real, timestamp: int)

  datatype Server = Server(clients: set<ClientId>, prices: map<string, real>)

  /** Every simulated ticker has a price, no other key exists, and every price is positive. */
  ghost predicate Valid(s: Server) {
    && (forall t :: t in s.prices <==> t in Settings.StockTickers)
    && (forall t :: t in s.prices ==> s.prices[t] > 0.0)
  }

  /** The simulated tickers are pairwise distinct. */
  lemma TickersDistinct()
    ensures forall k, j :: 0 <= k < j < |Settings.StockTickers| ==> Settings.StockTickers[k] != Settings.StockTickers[j]
  {
  }

  /** The initial state: no clients and one drawn starting price in [100, 500] per ticker. */
  function NewServer(initial: seq<real>): (s: Server)
    requires |initial| == |Settings.StockTickers|
    requires forall k :: 0 <= k < |initial| ==> 100.0 <= initial[k] <= 500.0
    ensures Valid(s) && s.clients == {}
    ensures forall k :: 0 <= k < |initial| ==> s.prices[Settings.StockTickers[k]] == initial[k]
  {
    var tickers := Settings.StockTickers;
    TickersDistinct();
    var prices := map k | 0 <= k < |tickers| :: tickers[k] := initial[k];
    assert forall k :: 0 <= k < |tickers| ==> tickers[k] in prices && prices[tickers[k]] == initial[k];
    assert forall t :: t in prices ==> exists k :: 0 <= k < |tickers| && t == tickers[k];
    Server({}, prices)
  }

  /** One price_update per ticker in the map's order, price rounded to cents, as sent to a newly registered client. */
  function Snapshot(s: Server, now: int): (m: seq<OutMessage>)
    requires Valid(s)
    ensures |m| == |Settings.StockTickers|
    ensures forall k :: 0 <= k < |m| ==>
              m[k] == OutMessage(PriceUpdate, Settings.StockTickers[k], Round2(s.prices[Settings.StockTickers[k]]), now)
  {
    var tickers := Settings.StockTickers;
    seq(|tickers|, k requires 0 <= k < |tickers| => OutMessage(PriceUpdate, tickers[k], Round2(s.prices[tickers[k]]), now))
  }

  datatype Registration = Registration(server: Server, delivered: seq<OutMessage>)

  /**
   `register_client`: the client joins the set before anything is sent, then
   receives the snapshot until the send with index `failsAt` (if any)
   fails; a failed send ends the snapshot but leaves the client registered.
   */
  function Register(s: Server, c: ClientId, failsAt: Option<nat>, now: int): (r: Registration)
    requires Valid(s)
    ensures r.server.clients == s.clients + {c}
    ensures r.server.prices == s.prices
    ensures |r.delivered| <= |Settings.StockTickers|
    ensures r.delivered == Snapshot(s, now)[..|r.delivered|]
    ensures failsAt.None? ==> r.delivered == Snapshot(s, now)
    ensures failsAt.Some? && failsAt.value < |Settings.StockTickers| ==> |r.delivered| == failsAt.value
    ensures failsAt.None? || failsAt.value >= |Settings.StockTickers| ==> r.delivered == Snapshot(s, now)
  {
    var snapshot := Snapshot(s, now);
    var sent := match failsAt
      case None => |snapshot|
      case Some(k) => if k < |snapshot| then k else |snapshot|;
    Registration(s.(clients := s.clients + {c}), snapshot[..sent])
  }

  /** `unregister_client`: discard the client. */
  function Unregister(s: Server, c: ClientId): (r: Server)
    ensures c !in r.clients
    ensures forall d :: d != c ==> (d in r.clients <==> d in s.clients)
    ensures r.prices == s.prices
  {
    s.(clients := s.clients - {c})
  }

  /** Unregistering twice is unregistering once. */
  lemma UnregisterIdempotent(s: Server, c: ClientId)
    ensures Unregister(Unregister(s, c), c) == Unregister(s, c)
  {
  }

  /** A client that registers and leaves before any broadcast leaves the server as it found it. */
  lemma RegisterThenUnregister(s: Server, c: ClientId, failsAt: Option<nat>, now: int)
    requires Valid(s) && c !in s.clients
    ensures Unregister(Register(s, c, failsAt, now).server, c) == s
  {
    assert (s.clients + {c}) - {c} == s.clients;
  }

  /**
   The outcome of one broadcast: the new state, whether the price went to
   the persistence sink, the clients a send was attempted to, the clients
   that received the message, and the message itself (price rounded to cents).
   */
  datatype BroadcastOutcome = BroadcastOutcome(server: Server, stored: bool,
                                               attempted: set<ClientId>, delivered: set<ClientId>,
                                               message: OutMessage)

  /**
   `broadcast_price_update`: with no clients nothing happens, not even the
   store. Otherwise the price is stored and one send is attempted to each
   client of a snapshot of the set; clients whose send fails are removed
   afterwards, and the rest still receive the message. The price map is not
   touched here.
   */
  function BroadcastPrice(s: Server, ticker: string, price: real, failing: set<ClientId>, now: int): (r: BroadcastOutcome)
    ensures r.message == OutMessage(PriceUpdate, ticker, Round2(price), now)
    ensures r.server.prices == s.prices
    ensures s.clients == {} ==> r.server == s && !r.stored && r.attempted == {} && r.delivered == {}
    ensures s.clients != {} ==> r.stored && r.attempted == s.clients
    ensures forall c :: c in r.delivered <==> c in s.clients && c !in failing
    ensures forall c :: c in r.server.clients <==> c in s.clients && c !in failing
    ensures r.delivered == r.server.clients
  {
    var message := OutMessage(PriceUpdate, ticker, Round2(price), now);
    if s.clients == {} then BroadcastOutcome(s, false, {}, {}, message)
    else
      var snapshot := s.clients;
      var disconnected := set c | c in snapshot && c in failing;
      var delivered := set c | c in snapshot && c !in failing;
      BroadcastOutcome(s.(clients := s.clients - disconnected), true, snapshot, delivered, message)
  }

  /** Broadcast never adds a client, and a client whose send succeeded is still registered. */
  lemma BroadcastOnlyDropsFailures(s: Server, ticker: string, price: real, failing: set<ClientId>, now: int)
    ensures var r := BroadcastPrice(s, ticker, price, failing, now);
            && r.server.clients <= s.clients
            && s.clients - r.server.clients == s.clients * failing
            && r.delivered + (s.clients * failing) == s.clients
  {
  }

  /** The random-walk step: apply the drawn change, with a floor of 1.0. */
  function PriceStep(current: real, change: real): (p: real)
    requires -0.05 <= change <= 0.05
    ensures p >= 1.0
    ensures p >= current * (1.0 + change)
    ensures p == current * (1.0 + change) || p == 1.0
  {
    var stepped := current * (1.0 + change);
    if stepped > 1.0 then stepped else 1.0
  }

  lemma MulNonNegative(a: real, b: real)
    requires a >= 0.0 && b >= 0.0
    ensures a * b >= 0.0
  {
  }

  /** From a price of at least 1.0 a step moves at most 5 percent either way. */
  lemma PriceStepBounded(current: real, change: real)
    requires current >= 1.0 && -0.05 <= change <= 0.05
    ensures 0.95 * current <= PriceStep(current, change) <= 1.05 * current
  {
    var up := 0.05 - change;
    var down := change + 0.05;
    MulNonNegative(current, up);
    MulNonNegative(current, down);
    assert current * (1.0 + change) == 1.05 * current - current * up;
    assert current * (1.0 + change) == 0.95 * current + current * down;
  }

  /** One ticker of a generation round: store the stepped price, then broadcast it. */
  function UpdateTicker(s: Server, ticker: string, change: real, failing: set<ClientId>, now: int): (r: BroadcastOutcome)
    requires Valid(s) && ticker in Settings.StockTickers
    requires -0.05 <= change <= 0.05
    ensures Valid(r.server)
    ensures r.server.prices == s.prices[ticker := PriceStep(s.prices[ticker], change)]
    ensures forall t :: t in s.prices && t != ticker ==> r.server.prices[t] == s.prices[t]
    ensures r.server.prices[ticker] >= 1.0
    ensures r.server.clients <= s.clients
    ensures r.message.price == Round2(r.server.prices[ticker])
    ensures Abs(r.message.price - r.server.prices[ticker]) <= 0.005
  {
    var p := PriceStep(s.prices[ticker], change);
    BroadcastPrice(s.(prices := s.prices[ticker := p]), ticker, p, failing, now)
  }

  /**
   One round of `generate_price_updates` over the first `n` tickers, with
   `changes[k]` the draw for ticker k and `failing[k]` the clients whose send
   fails during its broadcast.
   */
  function Round(s: Server, changes: seq<real>, failing: seq<set<ClientId>>, n: nat, now: int): (r: Server)
    requires Valid(s)
    requires n <= |Settings.StockTickers| && |changes| == |failing| == |Settings.StockTickers|
    requires forall k :: 0 <= k < |changes| ==> -0.05 <= changes[k] <= 0.05
    ensures Valid(r)
    ensures r.clients <= s.clients
    ensures forall k :: 0 <= k < n ==> r.prices[Settings.StockTickers[k]] >= 1.0
    ensures forall k :: 0 <= k < n ==>
              r.prices[Settings.StockTickers[k]] == PriceStep(s.prices[Settings.StockTickers[k]], changes[k])
    ensures forall k :: n <= k < |Settings.StockTickers| ==>
              r.prices[Settings.StockTickers[k]] == s.prices[Settings.StockTickers[k]]
  {
    if n == 0 then s
    else
      var prev := Round(s, changes, failing, n - 1, now);
      var next := UpdateTicker(prev, Settings.StockTickers[n - 1], changes[n - 1], failing[n - 1], now).server;
      RoundPricesStep(s.prices, prev.prices, next.prices, changes, n);
      next
  }

  /** Stepping ticker `n - 1` extends a round over the first `n - 1` tickers to one over the first `n`. */
  lemma RoundPricesStep(start: map<string, real>, prev: map<string, real>, next: map<string, real>,
                        changes: seq<real>, n: nat)
    requires 1 <= n <= |Settings.StockTickers| == |changes|
    requires forall k :: 0 <= k < |changes| ==> -0.05 <= changes[k] <= 0.05
    requires forall t :: t in Settings.StockTickers ==> t in start && t in prev
    requires forall k :: 0 <= k < n - 1 ==>
               prev[Settings.StockTickers[k]] == PriceStep(start[Settings.StockTickers[k]], changes[k])
    requires forall k :: n - 1 <= k < |Settings.StockTickers| ==>
               prev[Settings.StockTickers[k]] == start[Settings.StockTickers[k]]
    requires next == prev[Settings.StockTickers[n - 1] := PriceStep(prev[Settings.StockTickers[n - 1]], changes[n - 1])]
    ensures forall k :: 0 <= k < n ==>
              next[Settings.StockTickers[k]] == PriceStep(start[Settings.StockTickers[k]], changes[k])
    ensures forall k :: n <= k < |Settings.StockTickers| ==>
              next[Settings.StockTickers[k]] == start[Settings.StockTickers[k]]
  {
    TickersDistinct();
  }

  /** A decoded client message; anything that is not a JSON object is `Malformed`. */
  datatype Incoming = Malformed | Json(msgType: Option<string>, ticker: Option<string>)

  /**
   The body of the receive loop of `handle_client` for one message: a
   subscribe for a simulated ticker gets one subscription_confirmed reply
   with its current price rounded to cents; every other message gets none. No message
   changes the state.
   */
  function HandleClientMessage(s: Server, m: Incoming, now: int): (reply: Option<OutMessage>)
    requires Valid(s)
    ensures reply.Some? <==> (m.Json? && m.msgType == Some("subscribe") && m.ticker.Some?
                              && m.ticker.value in Settings.StockTickers)
    ensures reply.Some? ==> reply.value == OutMessage(SubscriptionConfirmed, m.ticker.value, Round2(s.prices[m.ticker.value]), now)
  {
    match m
    case Malformed => None
    case Json(msgType, ticker) =>
      if msgType == Some("subscribe") && ticker.Some? && |ticker.value| > 0 && ticker.value in Settings.StockTickers
      then Some(OutMessage(SubscriptionConfirmed, ticker.value, Round2(s.prices[ticker.value]), now))
      else None
  }

  /** A subscribe message for a simulated ticker: the messages that get a reply. */
  predicate IsSubscription(m: Incoming) {
    m.Json? && m.msgType == Some("subscribe") && m.ticker.Some? && m.ticker.value in Settings.StockTickers
  }

  /** The number of subscriptions among `messages`. */
  function Subscriptions(messages: seq<Incoming>): nat {
    if |messages| == 0 then 0
    else Subscriptions(messages[..|messages| - 1]) + (if IsSubscription(messages[|messages| - 1]) then 1 else 0)
  }

  datatype Session = Session(server: Server, snapshot: seq<OutMessage>, replies: seq<OutMessage>)

  /**
   `handle_client` for a connection that sends `messages` and then closes:
   register, answer each message, and unregister on the way out whatever
   happened.
   */
  function HandleClient(s: Server, c: ClientId, failsAt: Option<nat>, messages: seq<Incoming>, now: int): (r: Session)
    requires Valid(s)
    ensures c !in r.server.clients
    ensures forall d :: d != c ==> (d in r.server.clients <==> d in s.clients)
    ensures r.server.prices == s.prices
    ensures |r.snapshot| <= |Settings.StockTickers| && r.snapshot == Snapshot(s, now)[..|r.snapshot|]
    ensures failsAt.None? ==> r.snapshot == Snapshot(s, now)
    ensures failsAt.Some? && failsAt.value < |Settings.StockTickers| ==> |r.snapshot| == failsAt.value
    ensures failsAt.None? || failsAt.value >= |Settings.StockTickers| ==> r.snapshot == Snapshot(s, now)
    ensures r.replies == Replies(s, messages, now)
  {
    var reg := Register(s, c, failsAt, now);
    RepliesReadOnlyPrices(reg.server, s, messages, now);
    Session(Unregister(reg.server, c), reg.delivered, Replies(reg.server, messages, now))
  }

  /**
   The replies to a sequence of client messages, in order: one
   confirmation per subscription, carrying the current price of its ticker
   rounded to cents.
   */
  function Replies(s: Server, messages: seq<Incoming>, now: int): (r: seq<OutMessage>)
    requires Valid(s)
    ensures |r| == Subscriptions(messages)
    ensures forall k :: 0 <= k < |r| ==>
              && r[k].kind == SubscriptionConfirmed && r[k].timestamp == now
              && r[k].ticker in Settings.StockTickers
              && r[k].price == Round2(s.prices[r[k].ticker])
  {
    if |messages| == 0 then []
    else
      var reply := HandleClientMessage(s, messages[|messages| - 1], now);
      Replies(s, messages[..|messages| - 1], now) + (if reply.Some? then [reply.value] else [])
  }

  /** One message is answered by its own reply, if any. */
  lemma RepliesSingle(s: Server, m: Incoming, now: int)
    requires Valid(s)
    ensures Replies(s, [m], now) == (if IsSubscription(m) then [HandleClientMessage(s, m, now).value] else [])
  {
    assert [m][..0] == [];
  }

  /** The replies to two batches of messages are the replies to the first followed by those to the second. */
  lemma {:induction false} RepliesConcat(s: Server, a: seq<Incoming>, b: seq<Incoming>, now: int)
    requires Valid(s)
    ensures Replies(s, a + b, now) == Replies(s, a, now) + Replies(s, b, now)
    decreases |b|
  {
    if |b| == 0 {
      assert a + b == a;
    } else {
      var init := b[..|b| - 1];
      RepliesConcat(s, a, init, now);
      assert (a + b)[..|a + b| - 1] == a + init;
      assert (a + b)[|a + b| - 1] == b[|b| - 1];
    }
  }

  /** Replies read the prices only, not the set of clients. */
  lemma {:induction false} RepliesReadOnlyPrices(s1: Server, s2: Server, messages: seq<Incoming>, now: int)
    requires Valid(s1) && Valid(s2) && s1.prices == s2.prices
    ensures Replies(s1, messages, now) == Replies(s2, messages, now)
    decreases |messages|
  {
    if |messages| > 0 {
      RepliesReadOnlyPrices(s1, s2, messages[..|messages| - 1], now);
    }
  }

  /**
   Successive broadcasts under a failure schedule: the number of messages
   client `c` receives when `failing[k]` fails on the k-th broadcast.
   */
  function DeliveredCount(s: Server, failing: seq<set<ClientId>>, c: ClientId): (n: nat)
    ensures n <= |failing|
    ensures c !in s.clients ==> n == 0
    decreases |failing|
  {
    if |failing| == 0 then 0
    else
      var r := BroadcastPrice(s, "", 0.0, failing[0], 0);
      (if c in r.delivered then 1 else 0) + DeliveredCount(r.server, failing[1..], c)
  }

  /**
   Three healthy clients and five broadcasts, where client 2's send fails on
   the third: clients 1 and 3 receive all five, client 2 receives two and
   is gone afterwards.
   */
  lemma FanOutExample()
    ensures var s := Server({1, 2, 3}, map[]);
            var failing := [{}, {}, {2}, {}, {}];
            && DeliveredCount(s, failing, 1) == 5
            && DeliveredCount(s, failing, 2) == 2
            && DeliveredCount(s, failing, 3) == 5
  {
    var s := Server({1, 2, 3}, map[]);
    var s' := Server({1, 3}, map[]);
    var failing: seq<set<ClientId>> := [{}, {}, {2}, {}, {}];
    assert BroadcastPrice(s, "", 0.0, {}, 0).server == s;
    assert BroadcastPrice(s, "", 0.0, {2}, 0).server == s';
    assert BroadcastPrice(s', "", 0.0, {}, 0).server == s';
    assert failing[1..] == [{}, {2}, {}, {}];
    assert failing[1..][1..] == [{2}, {}, {}];
    assert failing[1..][1..][1..] == [{}, {}];
    assert failing[1..][1..][1..][1..] == [{}];
    assert DeliveredCount(s', [{}], 1) == 1;
    assert DeliveredCount(s', [{}], 3) == 1;
  }
}

=== FILE: client.dfy ===
/**
 The monitoring client of websocket_client.py: dispatch of incoming
 messages into a price tracker, the notification gate and the bounded
 reconnect loop. The wall clock is the parameter `now` (microseconds).
 */
module MonitorClient {
  import opened Prelude
  import opened PriceTracking
  import Settings

  /** An incoming message; anything that does not decode to a JSON object is `Unparseable`. */
  datatype ClientMessage =
    | Unparseable
    | Payload(msgType: Option<string>, ticker: Option<string>, price: Option<real>, timestamp: Option<int>)

  /** A printed price alert. */
  datatype Notification = Notification(ticker: string, up: bool, changePercent: real,
                                       oldPrice: real, currentPrice: real)

  /**
   The client's tracker as configured: the threshold is the setting 0.02,
   which both gates compare with a percentage, so a 0.02% move alerts.
   */
  function ConfiguredClientTracker(): (t: Tracker)
    ensures t.threshold == Settings.PriceChangeThreshold && t.history == map[]
  {
    NewTracker(Settings.PriceChangeThreshold)
  }

  /** The threshold the setting's own description and the dashboard use: 2 percent. */
  const IntendedThreshold: real := 2.0

  /** The client's tracker with the intended 2 percent threshold. */
  function NewClientTracker(): (t: Tracker)
    ensures t.threshold == IntendedThreshold && t.history == map[]
  {
    NewTracker(IntendedThreshold)
  }

  /**
   `notify_significant_change`: compare the current price with the first
   tracked price at most 60 seconds old, provided at least two tracked
   prices are that recent; alert when the change reaches the threshold in
   absolute value. The gate reads the same configured value the tracker
   was built with, so the tracker's threshold stands for it.
   */
  function NotifySignificantChange(tr: Tracker, ticker: string, currentPrice: real, now: int): (n: Option<Notification>)
    ensures n.Some? ==> ticker in tr.history
                        && |Since(tr.history[ticker], now - OneMinute)| >= 2
    ensures n.Some? ==> var first := Since(tr.history[ticker], now - OneMinute)[0].price;
                        && n.value == Notification(ticker, n.value.changePercent > 0.0,
                                                   PercentageChange(first, currentPrice), first, currentPrice)
                        && Abs(n.value.changePercent) >= tr.threshold
    ensures (&& ticker in tr.history
             && |Since(tr.history[ticker], now - OneMinute)| >= 2
             && Abs(PercentageChange(Since(tr.history[ticker], now - OneMinute)[0].price, currentPrice)) >= tr.threshold)
            ==> n.Some?
  {
    if ticker !in tr.history then None
    else
      var recent := Since(tr.history[ticker], now - OneMinute);
      if |recent| < 2 then None
      else
        var change := PercentageChange(recent[0].price, currentPrice);
        if Abs(change) >= tr.threshold
        then Some(Notification(ticker, change > 0.0, change, recent[0].price, currentPrice))
        else None
  }

  /** The message carries everything a price update needs to reach the tracker. */
  predicate IsUsableUpdate(m: ClientMessage) {
    && m.Payload?
    && m.msgType == Some("price_update")
    && m.ticker.Some? && |m.ticker.value| > 0
    && m.price.Some?
    && m.timestamp.Some?
  }

  /**
   `handle_message`: a price_update with a non-empty ticker, a price and a
   parseable timestamp is added to the tracker once and may raise a
   notification; every other message (other types, missing fields,
   unparseable text, subscription confirmations) changes nothing.
   */
  function HandleMessage(tr: Tracker, m: ClientMessage, now: int): (r: (Tracker, Option<Notification>))
    ensures !IsUsableUpdate(m) ==> r == (tr, None)
    ensures IsUsableUpdate(m) ==>
              r.0 == AddPrice(tr, m.ticker.value, m.price.value, m.timestamp, now)
    ensures r.1.Some? ==> IsUsableUpdate(m) && r.1.value.ticker == m.ticker.value
                          && r.1.value.currentPrice == m.price.value
                          && Abs(r.1.value.changePercent) >= tr.threshold
    ensures r.1.Some? ==> CheckSignificantChange(r.0, m.ticker.value, now)
    ensures IsUsableUpdate(m) && CheckSignificantChange(r.0, m.ticker.value, now) ==>
              r.1 == NotifySignificantChange(r.0, m.ticker.value, m.price.value, now)
  {
    match m
    case Unparseable => (tr, None)
    case Payload(msgType, ticker, price, timestamp) =>
      if msgType == Some("price_update") && ticker.Some? && |ticker.value| > 0 && price.Some? then
        if timestamp.None? then (tr, None)   // parsing the missing timestamp raises, and the handler swallows it
        else
          var tr' := AddPrice(tr, ticker.value, price.value, timestamp, now);
          if CheckSignificantChange(tr', ticker.value, now)
          then (tr', NotifySignificantChange(tr', ticker.value, price.value, now))
          else (tr', None)
      else (tr, None)
  }

  /** A usable update leaves exactly one new point, the newest, in its ticker's window. */
  lemma HandleMessageAddsOnePoint(tr: Tracker, m: ClientMessage, now: int)
    requires IsUsableUpdate(m)
    ensures var t := HandleMessage(tr, m, now).0;
            var w := t.history[m.ticker.value];
            && |w| >= 1
            && w[|w| - 1] == Point(m.price.value, m.timestamp.value)
            && forall other :: other in tr.history && other != m.ticker.value ==>
                 other in t.history && t.history[other] == tr.history[other]
  {
  }

  /**
   An update stamped within the last minute raises an alert exactly when
   the tracker's own check holds after adding it: the update is then the
   newest point of the minute, so both gates compare the same two prices.
   */
  lemma HandleMessageAlertsOnRecentMove(tr: Tracker, m: ClientMessage, now: int)
    requires IsUsableUpdate(m) && m.timestamp.value >= now - OneMinute
    ensures var r := HandleMessage(tr, m, now);
            r.1.Some? <==> CheckSignificantChange(r.0, m.ticker.value, now)
  {
    var ticker := m.ticker.value;
    var ts := m.timestamp.value;
    var p := Point(m.price.value, ts);
    var kept := Since(WindowOf(tr, ticker), ts - OneHour);
    SinceKeepsNewest(kept, p, now - OneMinute);
  }

  /** A tracker holding one price of 100.0 taken ten seconds before `now`. */
  function OnePoint(threshold: real, ticker: string, now: int): Tracker {
    Tracker(threshold, map[ticker := [Point(100.0, now - 10 * 1_000_000)]])
  }

  /**
   With the configured threshold, a rise from 100.0 to 100.05 (0.05
   percent) within ten seconds raises a price alert.
   */
  lemma ConfiguredThresholdAlertsOnTinyMove(now: int)
    ensures var tr := OnePoint(ConfiguredClientTracker().threshold, "AAPL", now);
            var m := Payload(Some("price_update"), Some("AAPL"), Some(100.05), Some(now));
            var r := HandleMessage(tr, m, now);
            r.1.Some? && r.1.value.up && r.1.value.changePercent < 0.1
  {
    var tr := OnePoint(ConfiguredClientTracker().threshold, "AAPL", now);
    TinyMoveWindow(tr, now);
    assert PercentageChange(100.0, 100.05) == 0.05;
  }

  /** With the intended threshold the same 0.05 percent move raises nothing. */
  lemma IntendedThresholdIgnoresTinyMove(now: int)
    ensures var tr := OnePoint(NewClientTracker().threshold, "AAPL", now);
            var m := Payload(Some("price_update"), Some("AAPL"), Some(100.05), Some(now));
            HandleMessage(tr, m, now).1.None?
  {
    var tr := OnePoint(NewClientTracker().threshold, "AAPL", now);
    TinyMoveWindow(tr, now);
    assert PercentageChange(100.0, 100.05) == 0.05;
  }

  /** The tracker window after the 100.05 update holds both points, and both are within the minute. */
  lemma TinyMoveWindow(tr: Tracker, now: int)
    requires tr == OnePoint(tr.threshold, "AAPL", now)
    ensures var t := AddPrice(tr, "AAPL", 100.05, Some(now), now);
            var w := [Point(100.0, now - 10 * 1_000_000), Point(100.05, now)];
            && t.history["AAPL"] == w
            && Since(w, now - OneMinute) == w
  {
    var p := Point(100.0, now - 10 * 1_000_000);
    var q := Point(100.05, now);
    assert Since([p], now - OneHour) == [p] by {
      assert [p][..0] == [];
    }
    assert Since([p, q], now - OneMinute) == [p, q] by {
      assert [p, q][..1] == [p];
      assert [p][..0] == [];
    }
  }

  /** With the intended tracker, every alert reports a move of at least 2 percent. */
  lemma IntendedAlertsAreTwoPercent(tr: Tracker, m: ClientMessage, now: int)
    requires tr.threshold == IntendedThreshold
    ensures var r := HandleMessage(tr, m, now);
            r.1.Some? ==> Abs(r.1.value.changePercent) >= 2.0
  {
  }

  // ------------------------------------------------------------- reconnect

  /** What one pass of the connect loop ran into. */
  datatype Attempt =
    | SessionEnded      // connected, the server closed the stream normally
    | SessionClosed     // ConnectionClosed was raised
    | SessionFailed     // connected, then some other exception
    | Refused           // ConnectionRefusedError before connecting
    | ConnectFailed     // some other exception before connecting
    | BadUri            // InvalidURI

  datatype LoopEnd = GaveUp | Closed | InvalidUri | OutOfAttempts

  /**
   The finished loop: the final retry counter, the number of 5-second
   sleeps, the number of attempts consumed and why the loop stopped.
   */
  datatype MonitorRun = MonitorRun(retryCount: nat, sleeps: nat, used: nat, end: LoopEnd)

  const MaxRetries: nat := 5

  /** An attempt that ends in the generic retry path. */
  predicate IsFailure(a: Attempt) {
    a == SessionFailed || a == Refused || a == ConnectFailed
  }

  /** An attempt that ends the loop at once: ConnectionClosed or InvalidURI. */
  predicate IsStop(a: Attempt) {
    a == SessionClosed || a == BadUri
  }

  /** Number of failures among `a`. */
  function Failures(a: seq<Attempt>): nat {
    if |a| == 0 then 0 else (if IsFailure(a[0]) then 1 else 0) + Failures(a[1..])
  }

  /** Counting the failures of a prefix one attempt longer. */
  lemma FailuresCons(a: seq<Attempt>, used: nat)
    requires used + 1 <= |a|
    ensures Failures(a[..used + 1]) == (if IsFailure(a[0]) then 1 else 0) + Failures(a[1..][..used])
  {
    assert a[..used + 1][1..] == a[1..][..used];
  }

  /**
   `connect_and_monitor` from a retry counter of `retry`, driven by the
   outcomes `attempts` (the finite model stops with `OutOfAttempts` when
   they run out). A connection resets the counter; a failure increments it
   and sleeps only while it is still below 5; ConnectionClosed and
   InvalidURI end the loop at once.
   */
  function Monitor(retry: nat, attempts: seq<Attempt>): (r: MonitorRun)
    requires retry < MaxRetries
    ensures r.retryCount <= MaxRetries
    ensures r.end == GaveUp <==> r.retryCount == MaxRetries
    ensures r.used <= |attempts|
    ensures r.end == OutOfAttempts ==> r.used == |attempts|
    ensures r.end != OutOfAttempts ==> r.used >= 1
    ensures r.end == Closed ==> attempts[r.used - 1] == SessionClosed && r.retryCount == 0
    ensures r.end == InvalidUri ==> attempts[r.used - 1] == BadUri
    ensures r.end == GaveUp ==> r.used >= MaxRetries - retry && FailingTail(attempts, r.used)
    decreases |attempts|
  {
    if |attempts| == 0 then MonitorRun(retry, 0, 0, OutOfAttempts)
    else
      var rest := attempts[1..];
      match attempts[0]
      case SessionEnded =>
        var r := Monitor(0, rest);
        if r.end == GaveUp then
          FailingTailGrows(attempts, r.used);
          r.(used := r.used + 1)
        else r.(used := r.used + 1)
      case SessionClosed => MonitorRun(0, 0, 1, Closed)
      case BadUri => MonitorRun(retry, 0, 1, InvalidUri)
      case SessionFailed =>
        // The connection resets the counter, then the failure counts once.
        var r := Monitor(1, rest);
        if r.end == GaveUp then
          FailingTailGrows(attempts, r.used);
          r.(sleeps := r.sleeps + 1, used := r.used + 1)
        else r.(sleeps := r.sleeps + 1, used := r.used + 1)
      case _ =>
        if retry + 1 < MaxRetries then
          var r := Monitor(retry + 1, rest);
          if r.end == GaveUp then
            FailingTailGrows(attempts, r.used);
            r.(sleeps := r.sleeps + 1, used := r.used + 1)
          else r.(sleeps := r.sleeps + 1, used := r.used + 1)
        else MonitorRun(retry + 1, 0, 1, GaveUp)
  }

  /**
   What run `r` says about the attempts it used: only the last can be a
   ConnectionClosed or an InvalidURI, and only when the loop stopped on it;
   every failure is followed by one 5-second sleep except the failure that
   gives up.
   */
  predicate StopsAndSleeps(a: seq<Attempt>, r: MonitorRun)
    requires r.used <= |a|
  {
    && (forall k :: 0 <= k < r.used - 1 ==> !IsStop(a[k]))
    && (r.end != Closed && r.end != InvalidUri ==> forall k :: 0 <= k < r.used ==> !IsStop(a[k]))
    && r.sleeps + (if r.end == GaveUp then 1 else 0) == Failures(a[..r.used])
  }

  /** The facts of a run over the rest carry over to one more non-stopping attempt in front. */
  lemma ExtendRun(a: seq<Attempt>, r: MonitorRun, r2: MonitorRun)
    requires r.used + 1 <= |a| && !IsStop(a[0])
    requires StopsAndSleeps(a[1..], r)
    requires r2 == r.(sleeps := r.sleeps + (if IsFailure(a[0]) then 1 else 0), used := r.used + 1)
    ensures StopsAndSleeps(a, r2)
  {
    FailuresCons(a, r.used);
    forall k | 1 <= k < r2.used
      ensures a[k] == a[1..][k - 1]
    {
    }
  }

  /** A first attempt that stops the loop, or fails with nothing left to retry, is the whole run. */
  lemma MonitorEndsAtOnce(retry: nat, a: seq<Attempt>)
    requires retry < MaxRetries && |a| >= 1
    requires IsStop(a[0]) || (IsFailure(a[0]) && a[0] != SessionFailed && retry + 1 == MaxRetries)
    ensures StopsAndSleeps(a, Monitor(retry, a))
  {
    FailuresCons(a, 0);
  }

  /** One attempt that does not end the loop in front of a run with the same facts. */
  lemma MonitorContinues(retry: nat, next: nat, a: seq<Attempt>)
    requires retry < MaxRetries && next < MaxRetries && |a| >= 1 && !IsStop(a[0])
    requires a[0] == SessionEnded ==> next == 0
    requires a[0] == SessionFailed ==> next == 1
    requires IsFailure(a[0]) && a[0] != SessionFailed ==> next == retry + 1
    requires StopsAndSleeps(a[1..], Monitor(next, a[1..]))
    ensures StopsAndSleeps(a, Monitor(retry, a))
  {
    ExtendRun(a, Monitor(next, a[1..]), Monitor(retry, a));
  }

  /** Every run of the loop has the facts `StopsAndSleeps` states. */
  lemma {:induction false} MonitorStopsAndSleeps(retry: nat, attempts: seq<Attempt>)
    requires retry < MaxRetries
    ensures StopsAndSleeps(attempts, Monitor(retry, attempts))
    decreases |attempts|
  {
    if |attempts| > 0 {
      var first := attempts[0];
      if IsStop(first) || (IsFailure(first) && first != SessionFailed && retry + 1 == MaxRetries) {
        MonitorEndsAtOnce(retry, attempts);
      } else {
        var next := if first == SessionEnded then 0 else if first == SessionFailed then 1 else retry + 1;
        MonitorStopsAndSleeps(next, attempts[1..]);
        MonitorContinues(retry, next, attempts);
      }
    }
  }

  /** The last `MaxRetries` of the first `used` attempts (all of them, if fewer) are failures. */
  predicate FailingTail(a: seq<Attempt>, used: nat)
    requires used <= |a|
  {
    forall k :: 0 <= k < used && used - k <= MaxRetries ==> IsFailure(a[k])
  }

  /** A failing tail of the rest stays one of the whole, with a failing head when the tail is short. */
  lemma FailingTailGrows(a: seq<Attempt>, used: nat)
    requires used + 1 <= |a|
    requires FailingTail(a[1..], used)
    requires used >= MaxRetries || IsFailure(a[0])
    ensures FailingTail(a, used + 1)
  {
    forall k | 0 <= k < used + 1 && used + 1 - k <= MaxRetries
      ensures IsFailure(a[k])
    {
      if k > 0 {
        assert a[k] == a[1..][k - 1];
      }
    }
  }

  /** From a fresh start, giving up means the five attempts just before were all failures. */
  lemma GiveUpAfterFiveFailures(attempts: seq<Attempt>)
    ensures var r := Monitor(0, attempts);
            r.end == GaveUp ==>
              && 5 <= r.used <= |attempts|
              && forall k :: r.used - 5 <= k < r.used ==> IsFailure(attempts[k])
  {
    var r := Monitor(0, attempts);
    if r.end == GaveUp {
      assert FailingTail(attempts, r.used);
      forall k | r.used - 5 <= k < r.used
        ensures IsFailure(attempts[k])
      {
        assert 0 <= k && r.used - k <= MaxRetries;
      }
    }
  }

  /** `n` consecutive refused connections. */
  function Refusals(n: nat): (a: seq<Attempt>)
    ensures |a| == n && forall k :: 0 <= k < n ==> a[k] == Refused
  {
    seq(n, _ => Refused)
  }

  /** The run `r` after `n` more sleeps and attempts in front of it. */
  function Delayed(r: MonitorRun, n: nat): MonitorRun {
    r.(sleeps := r.sleeps + n, used := r.used + n)
  }

  /** One refused connection below the limit: one more sleep, the counter one higher. */
  lemma RefusedStep(retry: nat, rest: seq<Attempt>)
    requires retry + 1 < MaxRetries
    ensures Monitor(retry, [Refused] + rest) == Delayed(Monitor(retry + 1, rest), 1)
  {
    assert ([Refused] + rest)[1..] == rest;
  }

  /** A non-empty run of refusals is a refusal followed by one fewer. */
  lemma RefusalsFront(n: nat, tail: seq<Attempt>)
    requires n > 0
    ensures Refusals(n) + tail == [Refused] + (Refusals(n - 1) + tail)
  {
    assert Refusals(n) == [Refused] + Refusals(n - 1);
  }

  /** One more refusal in front adds one sleep and one attempt to what the rest does. */
  lemma RefusalsStep(retry: nat, n: nat, last: nat, tail: seq<Attempt>)
    requires n > 0 && retry + n == last < MaxRetries
    requires Monitor(retry + 1, Refusals(n - 1) + tail) == Delayed(Monitor(last, tail), n - 1)
    ensures Monitor(retry, Refusals(n) + tail) == Delayed(Monitor(last, tail), n)
  {
    RefusalsFront(n, tail);
    RefusedStep(retry, Refusals(n - 1) + tail);
  }

  /** No refusals in front change nothing. */
  lemma NoRefusals(last: nat, tail: seq<Attempt>)
    requires last < MaxRetries
    ensures Monitor(last, Refusals(0) + tail) == Delayed(Monitor(last, tail), 0)
  {
    assert Refusals(0) + tail == tail;
  }

  /** Refusals that stay below the limit only raise the counter, to `last`, with one sleep each. */
  lemma {:induction false} RefusalsAccumulate(retry: nat, n: nat, last: nat, tail: seq<Attempt>)
    requires retry + n == last < MaxRetries
    ensures Monitor(retry, Refusals(n) + tail) == Delayed(Monitor(last, tail), n)
    decreases n
  {
    if n > 0 {
      RefusalsAccumulate(retry + 1, n - 1, last, tail);
      RefusalsStep(retry, n, last, tail);
    } else {
      NoRefusals(last, tail);
    }
  }

  /** Five refused connections in a row from a fresh start: the loop gives up after four sleeps. */
  lemma MonitorGivesUpAfterFiveRefusals(more: seq<Attempt>)
    ensures Monitor(0, Refusals(5) + more) == MonitorRun(5, 4, 5, GaveUp)
  {
    var a := Refusals(5) + more;
    assert a == Refusals(4) + ([Refused] + more);
    RefusalsAccumulate(0, 4, 4, [Refused] + more);
  }

  /** A session ending normally resets the counter, so four more refusals leave it where it was. */
  lemma SessionThenFourRefusals(more: seq<Attempt>)
    ensures var r := Monitor(4, more);
            Monitor(4, [SessionEnded] + Refusals(4) + more) == r.(sleeps := r.sleeps + 4, used := r.used + 5)
  {
    var c := [SessionEnded] + Refusals(4) + more;
    assert c[0] == SessionEnded && c[1..] == Refusals(4) + more;
    RefusalsAccumulate(0, 4, 4, more);
  }

  /**
   A successful session in between resets the count: after four failures,
   a session and four more failures the loop has not given up, and goes on
   from a counter of 4 with eight sleeps and nine attempts behind it.
   */
  lemma MonitorSessionResets(more: seq<Attempt>)
    ensures var r := Monitor(4, more);
            Monitor(0, Refusals(4) + [SessionEnded] + Refusals(4) + more) == r.(sleeps := r.sleeps + 8, used := r.used + 9)
  {
    var c := [SessionEnded] + Refusals(4) + more;
    assert Refusals(4) + [SessionEnded] + Refusals(4) + more == Refusals(4) + c;
    RefusalsAccumulate(0, 4, 4, c);
    SessionThenFourRefusals(more);
  }
}

=== FILE: dashboard.dfy ===
/**
 The browser dashboard of static/app.js: the latest quote per ticker, a
 ten-minute price history, the 2% alert rule, the newest-first alert list
 capped at 50, and the reconnect counter of the event stream.
 Times are whole milliseconds, the resolution of JavaScript Dates; the
 clock is the explicit parameter `now`.
 */
module Dashboard {
  import opened Prelude
  import opened PriceTracking

  const TenMinutes: int := 10 * 60 * 1000
  const OneMinuteMs: int := 60 * 1000
  const MaxAlerts: nat := 50
  const MaxReconnectAttempts: nat := 5

  /** The stored record of a ticker: its price, its timestamp and the whole record it replaced. */
  datatype Quote = Quote(price: real, timestamp: int, previous: Option<Quote>)

  /** The value of a JavaScript division `(current - old) / old * 100`, infinities and NaN included. */
  datatype Change = Finite(percent: real) | PlusInfinity | MinusInfinity | NotANumber

  datatype Alert = Alert(ticker: string, up: bool, change: Change, oldPrice: real, currentPrice: real, time: int)

  datatype State = State(
    prices: map<string, Quote>,
    history: map<string, seq<Point>>,
    alerts: seq<Alert>,
    reconnectAttempts: nat,
    connected: bool)

  /** The dashboard as the constructor leaves it. */
  const Initial := State(map[], map[], [], 0, false)

  /** The points strictly newer than `cutoff` (whole milliseconds, so this is `Since` one tick later). */
  function After(w: seq<Point>, cutoff: int): (r: seq<Point>)
    ensures |r| <= |w|
    ensures forall k :: 0 <= k < |r| ==> r[k].time > cutoff
  {
    Since(w, cutoff + 1)
  }

  /** Keeping the last minute of the last ten minutes is keeping the last minute. */
  lemma {:induction false} SinceNested(w: seq<Point>, outer: int, inner: int)
    requires outer <= inner
    ensures Since(Since(w, outer), inner) == Since(w, inner)
  {
    if |w| > 0 {
      var init := w[..|w| - 1];
      var last := w[|w| - 1];
      SinceNested(init, outer, inner);
      var tail := if last.time >= outer then [last] else [];
      SinceConcat(Since(init, outer), tail, inner);
      if last.time >= outer {
        assert Since([last], inner) == Since([last][..0], inner) + (if last.time >= inner then [last] else []);
        assert [last][..0] == [];
      } else {
        assert Since(init, outer) + [] == Since(init, outer);
      }
    }
  }

  /** JavaScript's `(current - old) / old * 100`: a zero old price gives an infinity or NaN. */
  function JsChange(oldPrice: real, currentPrice: real): (c: Change)
    ensures oldPrice != 0.0 ==> c.Finite?
    ensures oldPrice == 0.0 ==> ((c == PlusInfinity <==> currentPrice > 0.0)
                                 && (c == MinusInfinity <==> currentPrice < 0.0)
                                 && (c == NotANumber <==> currentPrice == 0.0))
  {
    if oldPrice != 0.0 then Finite(((currentPrice - oldPrice) / oldPrice) * 100.0)
    else if currentPrice > 0.0 then PlusInfinity
    else if currentPrice < 0.0 then MinusInfinity
    else NotANumber
  }

  /** Away from a zero old price the dashboard's change is the tracker's percentage change. */
  lemma JsChangeAgreesWithPercentageChange(oldPrice: real, currentPrice: real)
    requires oldPrice != 0.0
    ensures JsChange(oldPrice, currentPrice) == Finite(PercentageChange(oldPrice, currentPrice))
  {
  }

  /** `Math.abs(change) >= 2`; NaN compares false, infinities are large. */
  predicate Significant(c: Change) {
    match c
    case Finite(v) => Abs(v) >= 2.0
    case PlusInfinity => true
    case MinusInfinity => true
    case NotANumber => false
  }

  /** `change > 0`, which picks the up arrow and the success style. */
  predicate Rising(c: Change) {
    c == PlusInfinity || (c.Finite? && c.percent > 0.0)
  }

  /** From a positive old price the alert fires exactly on a 2% move, upward exactly when the price rose. */
  lemma SignificantFromPositive(oldPrice: real, currentPrice: real)
    requires oldPrice > 0.0
    ensures var c := JsChange(oldPrice, currentPrice);
            && (Significant(c) <==> Abs(PercentageChange(oldPrice, currentPrice)) >= 2.0)
            && (Rising(c) <==> currentPrice > oldPrice)
  {
    PercentageChangeSign(oldPrice, currentPrice);
  }

  /**
   `checkPriceAlert`: with a history of at least two points of which at
   least two are newer than one minute ago, compare the current price
   with the first of those and raise an alert on a change of 2% or more.
   */
  function CheckPriceAlert(history: map<string, seq<Point>>, ticker: string, currentPrice: real, now: int): (a: Option<Alert>)
    ensures ticker !in history || |history[ticker]| < 2 ==> a.None?
    ensures ticker in history && |After(history[ticker], now - OneMinuteMs)| < 2 ==> a.None?
    ensures a.Some? <==> ticker in history && |history[ticker]| >= 2
                         && var recent := After(history[ticker], now - OneMinuteMs);
                         && |recent| >= 2
                         && Significant(JsChange(recent[0].price, currentPrice))
    ensures a.Some? ==> var recent := After(history[ticker], now - OneMinuteMs);
                        && a.value.ticker == ticker
                        && a.value.oldPrice == recent[0].price
                        && a.value.currentPrice == currentPrice
                        && a.value.change == JsChange(recent[0].price, currentPrice)
                        && (a.value.up <==> Rising(a.value.change))
                        && a.value.time == now
  {
    if ticker !in history || |history[ticker]| < 2 then None
    else
      var recent := After(history[ticker], now - OneMinuteMs);
      if |recent| < 2 then None
      else
        var c := JsChange(recent[0].price, currentPrice);
        if Significant(c) then Some(Alert(ticker, Rising(c), c, recent[0].price, currentPrice, now))
        else None
  }

  /** The first `n` elements of `s`, or all of it. */
  function Take<T>(s: seq<T>, n: nat): (r: seq<T>)
    ensures |r| == if |s| <= n then |s| else n
    ensures forall k :: 0 <= k < |r| ==> r[k] == s[k]
  {
    if |s| <= n then s else s[..n]
  }

  /** `addAlert`: put the alert in front and keep at most the first fifty. */
  function AddAlert(alerts: seq<Alert>, a: Alert): (r: seq<Alert>)
    ensures 1 <= |r| <= MaxAlerts
    ensures r[0] == a
    ensures |r| == if |alerts| < MaxAlerts then |alerts| + 1 else MaxAlerts
    ensures forall k :: 1 <= k < |r| ==> r[k] == alerts[k - 1]
  {
    Take([a] + alerts, MaxAlerts)
  }

  function Reverse<T>(s: seq<T>): (r: seq<T>)
    ensures |r| == |s|
    ensures forall k :: 0 <= k < |s| ==> r[k] == s[|s| - 1 - k]
  {
    if |s| == 0 then [] else [s[|s| - 1]] + Reverse(s[..|s| - 1])
  }

  /** Alerts added one after another, in order. */
  function AddAlerts(alerts: seq<Alert>, news: seq<Alert>): seq<Alert>
  {
    if |news| == 0 then alerts else AddAlert(AddAlerts(alerts, news[..|news| - 1]), news[|news| - 1])
  }

  /** Truncating before putting one more in front loses nothing that the final truncation keeps. */
  lemma TakeCons<T>(x: T, s: seq<T>, n: nat)
    requires n >= 1
    ensures Take([x] + Take(s, n), n) == Take([x] + s, n)
  {
    if |s| > n {
      assert ([x] + s[..n])[..n] == ([x] + s)[..n];
    }
  }

  /**
   However many alerts arrive, the list is the newest first followed by
   the older ones, cut to the fifty most recent.
   */
  lemma {:induction false} AddAlertsKeepsNewestFifty(alerts: seq<Alert>, news: seq<Alert>)
    requires |alerts| <= MaxAlerts
    ensures AddAlerts(alerts, news) == Take(Reverse(news) + alerts, MaxAlerts)
  {
    if |news| == 0 {
      assert Reverse(news) + alerts == alerts;
    } else {
      var init := news[..|news| - 1];
      var last := news[|news| - 1];
      AddAlertsKeepsNewestFifty(alerts, init);
      TakeCons(last, Reverse(init) + alerts, MaxAlerts);
      assert Reverse(news) == [last] + Reverse(init);
      assert [last] + (Reverse(init) + alerts) == Reverse(news) + alerts;
    }
  }

  /**
   `updateStockPrice`: record the quote with the record it replaces,
   append the point, drop every point not newer than ten minutes ago, then
   run the alert check against the new history.
   */
  function UpdateStockPrice(st: State, ticker: string, price: real, timestamp: int, now: int): (r: State)
    ensures ticker in r.prices
    ensures r.prices[ticker] == Quote(price, timestamp, if ticker in st.prices then Some(st.prices[ticker]) else None)
    ensures forall t :: t != ticker ==> (t in r.prices <==> t in st.prices)
    ensures forall t :: t in st.prices && t != ticker ==> r.prices[t] == st.prices[t]
    ensures ticker in r.history
    ensures forall k :: 0 <= k < |r.history[ticker]| ==> r.history[ticker][k].time > now - TenMinutes
    ensures forall t :: t != ticker ==> (t in r.history <==> t in st.history)
    ensures forall t :: t in st.history && t != ticker ==> r.history[t] == st.history[t]
    ensures r.reconnectAttempts == st.reconnectAttempts && r.connected == st.connected
    ensures var a := CheckPriceAlert(r.history, ticker, price, now);
            r.alerts == if a.Some? then AddAlert(st.alerts, a.value) else st.alerts
  {
    var previous := if ticker in st.prices then Some(st.prices[ticker]) else None;
    var prices := st.prices[ticker := Quote(price, timestamp, previous)];
    var before := if ticker in st.history then st.history[ticker] else [];
    var history := st.history[ticker := After(before + [Point(price, timestamp)], now - TenMinutes)];
    var a := CheckPriceAlert(history, ticker, price, now);
    st.(prices := prices, history := history,
        alerts := if a.Some? then AddAlert(st.alerts, a.value) else st.alerts)
  }

  /**
   The ticker's new history is the old one followed by the new point,
   keeping exactly the points newer than ten minutes ago: the new point
   stays iff its timestamp is.
   */
  lemma UpdateStockPriceHistory(st: State, ticker: string, price: real, timestamp: int, now: int)
    ensures var r := UpdateStockPrice(st, ticker, price, timestamp, now);
            var before := if ticker in st.history then st.history[ticker] else [];
            && (forall p :: p in r.history[ticker] <==>
                              ((p in before || p == Point(price, timestamp)) && p.time > now - TenMinutes))
            && (timestamp > now - TenMinutes ==>
                  |r.history[ticker]| >= 1 && r.history[ticker][|r.history[ticker]| - 1] == Point(price, timestamp))
  {
    var before := if ticker in st.history then st.history[ticker] else [];
    var p := Point(price, timestamp);
    forall q
      ensures q in Since(before + [p], now - TenMinutes + 1) <==> (q in before || q == p) && q.time > now - TenMinutes
    {
      SinceMembers(before + [p], now - TenMinutes + 1, q);
    }
    if timestamp > now - TenMinutes {
      SinceKeepsNewest(before, p, now - TenMinutes + 1);
    }
  }

  /** The history map after an update: only the ticker's entry changes, to its trimmed extension. */
  lemma UpdatedHistory(st: State, ticker: string, price: real, timestamp: int, now: int)
    ensures var before := if ticker in st.history then st.history[ticker] else [];
            UpdateStockPrice(st, ticker, price, timestamp, now).history
              == st.history[ticker := After(before + [Point(price, timestamp)], now - TenMinutes)]
  {
  }

  /** With the current price last in the minute window, the alert compares that minute's two ends. */
  lemma AlertComparesEnds(history: map<string, seq<Point>>, ticker: string, price: real, now: int)
    requires ticker in history
    requires var recent := After(history[ticker], now - OneMinuteMs);
             |recent| >= 1 && recent[|recent| - 1].price == price
    ensures var recent := After(history[ticker], now - OneMinuteMs);
            CheckPriceAlert(history, ticker, price, now).Some? <==>
              |recent| >= 2 && Significant(JsChange(recent[0].price, recent[|recent| - 1].price))
  {
    var recent := After(history[ticker], now - OneMinuteMs);
    assert |recent| <= |history[ticker]|;
  }

  /**
   When the new point is within the last minute, the alert compares the
   first and the last price of that minute, as
   `PriceTracker.check_significant_change` does, and that minute is the one
   of the untrimmed history.
   */
  lemma UpdateAlertComparesMinuteEnds(st: State, ticker: string, price: real, timestamp: int, now: int)
    requires timestamp > now - OneMinuteMs
    ensures var r := UpdateStockPrice(st, ticker, price, timestamp, now);
            var before := if ticker in st.history then st.history[ticker] else [];
            var recent := After(before + [Point(price, timestamp)], now - OneMinuteMs);
            && After(r.history[ticker], now - OneMinuteMs) == recent
            && recent[|recent| - 1].price == price
            && (CheckPriceAlert(r.history, ticker, price, now).Some? <==>
                  |recent| >= 2 && Significant(JsChange(recent[0].price, recent[|recent| - 1].price)))
  {
    var before := if ticker in st.history then st.history[ticker] else [];
    var p := Point(price, timestamp);
    UpdatedHistory(st, ticker, price, timestamp, now);
    var history := st.history[ticker := After(before + [p], now - TenMinutes)];
    SinceNested(before + [p], now - TenMinutes + 1, now - OneMinuteMs + 1);
    var recent := After(before + [p], now - OneMinuteMs);
    assert After(history[ticker], now - OneMinuteMs) == recent;
    SinceKeepsNewest(before, p, now - OneMinuteMs + 1);
    assert recent[|recent| - 1] == p;
    AlertComparesEnds(history, ticker, price, now);
  }

  // ------------------------------------------------------------- reconnect

  /** The stream opened: connected, and the attempt counter starts over. */
  function OnOpen(st: State): (r: State)
    ensures r.connected && r.reconnectAttempts == 0
    ensures r.prices == st.prices && r.history == st.history && r.alerts == st.alerts
  {
    st.(connected := true, reconnectAttempts := 0)
  }

  /**
   The stream failed: disconnected; below five attempts, count one more and
   schedule a reconnect in five seconds, otherwise give up and warn.
   */
  function OnError(st: State): (r: (State, bool))
    ensures !r.0.connected
    ensures r.1 <==> st.reconnectAttempts < MaxReconnectAttempts
    ensures r.0.reconnectAttempts == if r.1 then st.reconnectAttempts + 1 else st.reconnectAttempts
    ensures st.reconnectAttempts <= MaxReconnectAttempts ==> r.0.reconnectAttempts <= MaxReconnectAttempts
    ensures r.0.prices == st.prices && r.0.history == st.history && r.0.alerts == st.alerts
  {
    if st.reconnectAttempts < MaxReconnectAttempts
    then (st.(connected := false, reconnectAttempts := st.reconnectAttempts + 1), true)
    else (st.(connected := false), false)
  }

  datatype StreamEvent = Opened | Failed

  /** Feeds the events to the handlers; the result counts the reconnects scheduled. */
  function Stream(st: State, events: seq<StreamEvent>): (State, nat)
  {
    if |events| == 0 then (st, 0)
    else
      var (s, n) := Stream(st, events[..|events| - 1]);
      match events[|events| - 1]
      case Opened => (OnOpen(s), n)
      case Failed =>
        var (s', scheduled) := OnError(s);
        (s', n + if scheduled then 1 else 0)
  }

  /** The counter never passes five, and without an open no more than five reconnects are ever scheduled. */
  lemma {:induction false} StreamBounded(st: State, events: seq<StreamEvent>)
    requires st.reconnectAttempts <= MaxReconnectAttempts
    ensures Stream(st, events).0.reconnectAttempts <= MaxReconnectAttempts
    ensures Opened !in events ==>
              Stream(st, events).1 + st.reconnectAttempts == Stream(st, events).0.reconnectAttempts
  {
    if |events| > 0 {
      StreamBounded(st, events[..|events| - 1]);
      assert events == events[..|events| - 1] + [events[|events| - 1]];
    }
  }

  /** A fresh dashboard that keeps failing schedules exactly five reconnects. */
  lemma FiveReconnectsFromFresh(errors: nat)
    requires errors >= MaxReconnectAttempts
    ensures Stream(Initial, seq(errors, _ => Failed)).1 == MaxReconnectAttempts
  {
    var ev := seq(errors, _ => Failed);
    StreamBounded(Initial, ev);
    FailuresSaturate(Initial, errors);
  }

  /** Each failure raises the counter until it reaches five. */
  lemma {:induction false} FailuresSaturate(st: State, errors: nat)
    requires st.reconnectAttempts <= MaxReconnectAttempts
    ensures var r := Stream(st, seq(errors, _ => Failed)).0;
            r.reconnectAttempts == if st.reconnectAttempts + errors <= MaxReconnectAttempts
                                   then st.reconnectAttempts + errors else MaxReconnectAttempts
  {
    if errors > 0 {
      var ev := seq(errors, _ => Failed);
      assert ev[..errors - 1] == seq(errors - 1, _ => Failed);
      FailuresSaturate(st, errors - 1);
    }
  }
}

=== FILE: prelude.dfy ===
/**
 Value types and arithmetic shared by the rest of the model: an optional value
 (standing for Python's None, pandas' NaN and JavaScript's undefined), a result
 type (standing for a raised exception), absolute values, sums of reals and
 Python's rounding to cents.
 */
module Prelude {

  /** A value that may be absent. */
  datatype Option<+T> = None | Some(value: T) {

    /** The value if present, otherwise `default`. */
    function GetOr(default: T): T {
      match this
      case Some(v) => v
      case None => default
    }
  }

  /** Either a computed value or the error the source would have raised. */
  datatype Result<+T, +E> = Ok(value: T) | Err(error: E)

  function Abs(x: real): (r: real)
    ensures r >= 0.0
    ensures r == x || r == -x
  {
    if x < 0.0 then -x else x
  }

  function AbsInt(x: int): (r: nat)
    ensures r == x || r == -x
  {
    if x < 0 then -x else x
  }

  /** Sum of a sequence of reals, folded from the right end. */
  function Sum(s: seq<real>): real {
    if |s| == 0 then 0.0 else Sum(s[..|s| - 1]) + s[|s| - 1]
  }

  /** Removing the first element of a sum. */
  lemma {:induction false} SumFront(s: seq<real>)
    requires |s| > 0
    ensures Sum(s) == s[0] + Sum(s[1..])
  {
    if |s| > 1 {
      var init := s[..|s| - 1];
      SumFront(init);
      assert init[1..] == s[1..][..|s[1..]| - 1];
    }
  }

  /** A sum over a concatenation is the sum of the sums. */
  lemma {:induction false} SumConcat(a: seq<real>, b: seq<real>)
    ensures Sum(a + b) == Sum(a) + Sum(b)
  {
    if |b| > 0 {
      var init := b[..|b| - 1];
      SumConcat(a, init);
      assert (a + b)[..|a + b| - 1] == a + init;
    } else {
      assert a + b == a;
    }
  }

  /** The sum of `n` copies of `c` is `n * c`. */
  lemma {:induction false} SumConstant(s: seq<real>, c: real)
    requires forall k :: 0 <= k < |s| ==> s[k] == c
    ensures Sum(s) == (|s| as real) * c
  {
    if |s| > 0 {
      SumConstant(s[..|s| - 1], c);
    }
  }

  /** Whole cents of `v` rounded to nearest, ties to the even cent, as `round(v, 2)` does. */
  function Cents(v: real): (c: int)
    ensures Abs(c as real - v * 100.0) <= 0.5
  {
    var x := v * 100.0;
    var f := x.Floor;
    var frac := x - f as real;
    if frac < 0.5 then f
    else if frac > 0.5 then f + 1
    else if f % 2 == 0 then f else f + 1
  }

  /** `round(v, 2)`, on exact reals. */
  function Round2(v: real): (r: real)
    ensures r * 100.0 == Cents(v) as real
    ensures Abs(r - v) <= 0.005
  {
    Cents(v) as real / 100.0
  }

  /** Rounding an amount already in whole cents changes nothing. */
  lemma Round2Idempotent(v: real)
    ensures Round2(Round2(v)) == Round2(v)
  {
    var c := Cents(v);
    var r := Round2(v);
    assert r * 100.0 == c as real;
    assert (r * 100.0).Floor == c;
  }

  /** Rounding keeps the sign of anything at least a cent away from zero. */
  lemma Round2Positive(v: real)
    requires v >= 0.01
    ensures Round2(v) >= 0.01
  {
    var c := Cents(v);
    assert c as real >= 0.5;
  }
}

=== FILE: schemas.dfy ===
/**
 `TradeCreate` of schemas.py: field constraints (ticker length 1 to 10,
 price and quantity strictly positive, side "buy" or "sell", optional
 timestamp) followed by the field validators (ticker upper-cased and
 stripped, price rounded to cents). The constraints are checked on the
 raw values, before the validators rewrite them; `ValidateChecked` is the
 variant that checks the values it returns.
 */
module TradeSchema {
  import opened Prelude

  datatype Side = BuySide | SellSide

  /** A request body whose fields all have the right types. */
  datatype RawTrade = RawTrade(ticker: string, price: real, quantity: int, side: string, timestamp: Option<int>)

  /** A validated trade. */
  datatype TradeCreate = TradeCreate(ticker: string, price: real, quantity: int, side: Side, timestamp: Option<int>)

  /** The fields a request can be rejected on; every failing field is reported. */
  datatype Field = TickerField | PriceField | QuantityField | SideField

  const MaxTickerLength: nat := 10

  // ------------------------------------------------------------- ticker

  /** The characters below U+0100 that `str.strip()` removes: tab to carriage return, U+001C to space, U+0085, U+00A0. */
  predicate IsSpace(c: char) {
    var n := c as int;
    (9 <= n <= 13) || (28 <= n <= 32) || n == 0x85 || n == 0xA0
  }

  predicate IsLower(c: char) {
    'a' <= c <= 'z'
  }

  /** `str.upper()` on one character, for the ASCII letters. */
  function UpperChar(c: char): (u: char)
    ensures !IsLower(u)
    ensures IsSpace(u) <==> IsSpace(c)
    ensures !IsLower(c) ==> u == c
  {
    if IsLower(c) then (c as int - 32) as char else c
  }

  function Upper(s: string): (r: string)
    ensures |r| == |s|
    ensures forall k :: 0 <= k < |s| ==> r[k] == UpperChar(s[k])
  {
    seq(|s|, k requires 0 <= k < |s| => UpperChar(s[k]))
  }

  /** Number of leading whitespace characters. */
  function LeadingSpace(s: string): (n: nat)
    ensures n <= |s|
    ensures forall k :: 0 <= k < n ==> IsSpace(s[k])
    ensures n < |s| ==> !IsSpace(s[n])
  {
    if |s| == 0 || !IsSpace(s[0]) then 0 else 1 + LeadingSpace(s[1..])
  }

  /** Number of trailing whitespace characters. */
  function TrailingSpace(s: string): (n: nat)
    ensures n <= |s|
    ensures forall k :: |s| - n <= k < |s| ==> IsSpace(s[k])
    ensures n < |s| ==> !IsSpace(s[|s| - 1 - n])
  {
    if |s| == 0 || !IsSpace(s[|s| - 1]) then 0 else 1 + TrailingSpace(s[..|s| - 1])
  }

  /** `str.strip()`: the longest infix that neither starts nor ends with whitespace. */
  function Strip(s: string): (r: string)
    ensures |r| <= |s|
    ensures |r| > 0 ==> !IsSpace(r[0]) && !IsSpace(r[|r| - 1])
    ensures var a := LeadingSpace(s);
            && a + |r| <= |s|
            && r == s[a..a + |r|]
            && (forall k :: a + |r| <= k < |s| ==> IsSpace(s[k]))
  {
    var a := LeadingSpace(s);
    if a == |s| then ""
    else
      var b := TrailingSpace(s[a..]);
      assert b < |s| - a;
      s[a..|s| - b]
  }

  /** A string with nothing to strip strips to itself. */
  lemma StripTrimmed(s: string)
    requires |s| > 0 ==> !IsSpace(s[0]) && !IsSpace(s[|s| - 1])
    ensures Strip(s) == s
  {
    if |s| > 0 {
      assert LeadingSpace(s) == 0;
      assert s[0..] == s;
      assert TrailingSpace(s) == 0;
    }
  }

  /** The ticker validator: upper-case, then strip. */
  function NormalizeTicker(s: string): (r: string)
    ensures |r| <= |s|
    ensures forall k :: 0 <= k < |r| ==> !IsLower(r[k])
    ensures |r| > 0 ==> !IsSpace(r[0]) && !IsSpace(r[|r| - 1])
  {
    Strip(Upper(s))
  }

  /** Normalising twice is normalising once. */
  lemma NormalizeTickerIdempotent(s: string)
    ensures NormalizeTicker(NormalizeTicker(s)) == NormalizeTicker(s)
  {
    var t := NormalizeTicker(s);
    assert Upper(t) == t;
    StripTrimmed(t);
  }

  /** An already upper-case ticker without surrounding whitespace passes unchanged. */
  lemma NormalizeTickerKeepsCanonical(s: string)
    requires forall k :: 0 <= k < |s| ==> !IsLower(s[k])
    requires |s| > 0 ==> !IsSpace(s[0]) && !IsSpace(s[|s| - 1])
    ensures NormalizeTicker(s) == s
  {
    assert Upper(s) == s;
    StripTrimmed(s);
  }

  lemma NormalizeTickerExample()
    ensures NormalizeTicker(" aapl\n") == "AAPL"
  {
    var u := Upper(" aapl\n");
    assert |u| == 6 && u[0] == ' ' && u[1] == 'A' && u[2] == 'A' && u[3] == 'P' && u[4] == 'L' && u[5] == '\n';
    assert u == " AAPL\n";
    assert LeadingSpace(u) == 1 by {
      assert u[1..] == "AAPL\n";
    }
    assert u[1..] == "AAPL\n";
    assert TrailingSpace("AAPL\n") == 1 by {
      assert "AAPL\n"[..4] == "AAPL";
    }
  }

  // ------------------------------------------------------------- validation

  function ParseSide(s: string): (r: Option<Side>)
    ensures r == Some(BuySide) <==> s == "buy"
    ensures r == Some(SellSide) <==> s == "sell"
  {
    if s == "buy" then Some(BuySide) else if s == "sell" then Some(SellSide) else None
  }

  /** The fields whose constraints a request breaks, checked on the raw values. */
  function RawFailures(raw: RawTrade): (errs: set<Field>)
    ensures TickerField in errs <==> !(1 <= |raw.ticker| <= MaxTickerLength)
    ensures PriceField in errs <==> raw.price <= 0.0
    ensures QuantityField in errs <==> raw.quantity <= 0
    ensures SideField in errs <==> raw.side != "buy" && raw.side != "sell"
  {
    (if 1 <= |raw.ticker| <= MaxTickerLength then {} else {TickerField})
    + (if raw.price > 0.0 then {} else {PriceField})
    + (if raw.quantity > 0 then {} else {QuantityField})
    + (if ParseSide(raw.side).Some? then {} else {SideField})
  }

  /**
   `TradeCreate(...)` as written: reject with every failing field, or
   return the normalised ticker, the price rounded to cents and the other
   fields unchanged (a missing timestamp stays None).
   */
  function Validate(raw: RawTrade): (r: Result<TradeCreate, set<Field>>)
    ensures r.Err? <==> RawFailures(raw) != {}
    ensures r.Err? ==> r.error == RawFailures(raw)
    ensures r.Ok? ==> && r.value.ticker == NormalizeTicker(raw.ticker)
                      && r.value.price == Round2(raw.price)
                      && r.value.quantity == raw.quantity && raw.quantity > 0
                      && Some(r.value.side) == ParseSide(raw.side)
                      && r.value.timestamp == raw.timestamp
  {
    var errs := RawFailures(raw);
    if errs != {} then Err(errs)
    else Ok(TradeCreate(NormalizeTicker(raw.ticker), Round2(raw.price), raw.quantity,
                        ParseSide(raw.side).value, raw.timestamp))
  }

  /** A ticker of blanks passes the length check and is stored empty. */
  lemma BlankTickerAccepted()
    ensures Validate(RawTrade("  ", 1.0, 1, "buy", None)) == Ok(TradeCreate("", 1.0, 1, BuySide, None))
  {
    var u := Upper("  ");
    assert u == "  ";
    assert LeadingSpace(u) == 2 by {
      assert u[1..] == " ";
      assert u[1..][1..] == "";
    }
    assert Cents(1.0) == 100;
  }

  /** A positive price under half a cent passes the positivity check and is stored as zero. */
  lemma SubCentPriceAccepted()
    ensures Validate(RawTrade("AAPL", 0.004, 1, "buy", None)).Ok?
    ensures Validate(RawTrade("AAPL", 0.004, 1, "buy", None)).value.price == 0.0
  {
    assert Cents(0.004) == 0;
  }

  /** The request breaks no constraint once the validators have rewritten it. */
  function CheckedFailures(raw: RawTrade): (errs: set<Field>)
    ensures TickerField in errs <==> !(1 <= |NormalizeTicker(raw.ticker)| <= MaxTickerLength)
    ensures PriceField in errs <==> Round2(raw.price) <= 0.0
    ensures QuantityField in errs <==> raw.quantity <= 0
    ensures SideField in errs <==> raw.side != "buy" && raw.side != "sell"
  {
    RawFailures(raw.(ticker := NormalizeTicker(raw.ticker), price := Round2(raw.price)))
  }

  /** Validation that checks the values it stores: every accepted trade meets the field constraints. */
  function ValidateChecked(raw: RawTrade): (r: Result<TradeCreate, set<Field>>)
    ensures r.Err? <==> CheckedFailures(raw) != {}
    ensures r.Err? ==> r.error == CheckedFailures(raw)
    ensures r.Ok? ==> && 1 <= |r.value.ticker| <= MaxTickerLength
                      && r.value.price > 0.0
                      && r.value.quantity > 0
                      && r.value.ticker == NormalizeTicker(raw.ticker)
                      && r.value.price == Round2(raw.price)
                      && r.value.quantity == raw.quantity
                      && Some(r.value.side) == ParseSide(raw.side)
                      && r.value.timestamp == raw.timestamp
  {
    var errs := CheckedFailures(raw);
    if errs != {} then Err(errs)
    else Ok(TradeCreate(NormalizeTicker(raw.ticker), Round2(raw.price), raw.quantity,
                        ParseSide(raw.side).value, raw.timestamp))
  }

  /** An accepted trade is a fixed point: its fields validate again to themselves. */
  lemma ValidateCheckedStable(raw: RawTrade)
    requires ValidateChecked(raw).Ok?
    ensures var t := ValidateChecked(raw).value;
            var back := RawTrade(t.ticker, t.price, t.quantity, if t.side == BuySide then "buy" else "sell", t.timestamp);
            ValidateChecked(back) == Ok(t)
  {
    var t := ValidateChecked(raw).value;
    NormalizeTickerIdempotent(raw.ticker);
    Round2Idempotent(raw.price);
  }

  /** On input the validators would leave unchanged, the two validations agree. */
  lemma ValidationsAgreeOnCanonicalInput(raw: RawTrade)
    requires NormalizeTicker(raw.ticker) == raw.ticker
    requires Round2(raw.price) == raw.price
    ensures Validate(raw) == ValidateChecked(raw)
  {
  }

  /** The corrected validation turns both counterexamples away. */
  lemma CheckedRejectsCounterexamples()
    ensures ValidateChecked(RawTrade("  ", 1.0, 1, "buy", None)) == Err({TickerField})
    ensures ValidateChecked(RawTrade("AAPL", 0.004, 1, "buy", None)) == Err({PriceField})
  {
    BlankTickerAccepted();
    SubCentPriceAccepted();
    var aapl := NormalizeTicker("AAPL");
    NormalizeTickerKeepsCanonical("AAPL");
  }
}

=== FILE: settings.dfy ===
/** The configuration values the modelled components read from the settings object. */
module Settings {

  /** Default short moving-average window, in rows. */
  const ShortMaPeriod: int := 50

  /** Default long moving-average window, in rows. */
  const LongMaPeriod: int := 200

  /**
   Threshold handed to the monitoring client's tracker and used by its
   notification gate. It is compared against a percentage, so it means
   0.02 percent, not 2 percent.
   */
  const PriceChangeThreshold: real := 0.02

  /** The simulated tickers, in the order the feed visits them. */
  const StockTickers: seq<string> := ["AAPL", "MSFT", "GOOGL", "TSLA", "AMZN", "META", "NVDA"]
}

=== FILE: signals.dfy ===
/**
 The moving-average engine and the crossover detector of utils.py.
 An undefined moving-average entry (NaN in the source) is `None`.
 */
module Signals {
  import opened Prelude

  /** Arithmetic mean of a non-empty window. */
  function Mean(w: seq<real>): real
    requires |w| > 0
  {
    Sum(w) / (|w| as real)
  }

  /**
   The simple moving average of `prices` over `period` rows. An entry is
   defined only once a full window of `period` prices ends at its index.
   A period below 1 selects an empty slice at every index, whose mean the
   numerical library reports as NaN, so every entry is undefined.
   */
  function MovingAverage(prices: seq<real>, period: int): (ma: seq<Option<real>>)
    ensures |ma| == |prices|
    ensures |prices| < period ==> forall i :: 0 <= i < |ma| ==> ma[i].None?
    ensures period < 1 ==> forall i :: 0 <= i < |ma| ==> ma[i].None?
    ensures 1 <= period ==> forall i :: 0 <= i < |ma| ==> (ma[i].Some? <==> period - 1 <= i)
    ensures forall i :: 0 <= i < |ma| && 1 <= period <= i + 1 ==>
              ma[i] == Some(Mean(prices[i - period + 1 .. i + 1]))
  {
    if |prices| < period then
      seq(|prices|, _ => None)
    else
      seq(|prices|, i requires 0 <= i < |prices| =>
        if i < period - 1 || period < 1 then None else Some(Mean(prices[i - period + 1 .. i + 1])))
  }

  /** A mean times the window length gives back the window's sum. */
  lemma MeanTimesLength(w: seq<real>)
    requires |w| > 0
    ensures Mean(w) * (|w| as real) == Sum(w)
  {
  }

  /**
   Sliding-window recurrence: each defined entry after the first equals the
   previous one plus the entering price minus the leaving price, divided by
   the period.
   */
  lemma MovingAverageSlides(prices: seq<real>, period: int, i: int)
    requires 1 <= period <= i < |prices|
    ensures MovingAverage(prices, period)[i].Some? && MovingAverage(prices, period)[i - 1].Some?
    ensures (period as real) * MovingAverage(prices, period)[i].value
         == (period as real) * MovingAverage(prices, period)[i - 1].value + prices[i] - prices[i - period]
  {
    var ma := MovingAverage(prices, period);
    var prev := prices[i - period .. i];
    var cur := prices[i - period + 1 .. i + 1];
    assert ma[i] == Some(Mean(cur));
    assert ma[i - 1] == Some(Mean(prev));
    WindowSumSlides(prices, period, i);
    MeanTimesLength(cur);
    MeanTimesLength(prev);
  }

  /** The window sums behind MovingAverageSlides. */
  lemma WindowSumSlides(prices: seq<real>, period: int, i: int)
    requires 1 <= period <= i < |prices|
    ensures Sum(prices[i - period + 1 .. i + 1]) == Sum(prices[i - period .. i]) - prices[i - period] + prices[i]
  {
    var middle := prices[i - period + 1 .. i];
    assert prices[i - period .. i] == [prices[i - period]] + middle;
    assert prices[i - period + 1 .. i + 1] == middle + [prices[i]];
    SumConcat([prices[i - period]], middle);
    SumConcat(middle, [prices[i]]);
    assert Sum([prices[i - period]]) == prices[i - period];
    assert Sum([prices[i]]) == prices[i];
  }

  /** Over a constant price series, every defined average is that constant. */
  lemma MovingAverageOfConstant(prices: seq<real>, period: int, c: real, i: int)
    requires forall k :: 0 <= k < |prices| ==> prices[k] == c
    requires 1 <= period <= i + 1 && i < |prices|
    ensures MovingAverage(prices, period)[i] == Some(c)
  {
    var w := prices[i - period + 1 .. i + 1];
    assert MovingAverage(prices, period)[i] == Some(Mean(w));
    SumConstant(w, c);
    MeanOfConstant(w, c);
  }

  /** A window whose sum is length times `c` has mean `c`. */
  lemma MeanOfConstant(w: seq<real>, c: real)
    requires |w| > 0
    requires Sum(w) == (|w| as real) * c
    ensures Mean(w) == c
  {
  }

  /** A crossover signal. */
  datatype Signal = Buy | Sell | Hold

  /** Both averages are defined at `i - 1` and at `i`. */
  predicate DefinedAround(short: seq<Option<real>>, long: seq<Option<real>>, i: int)
    requires 1 <= i < |short| && i < |long|
  {
    short[i - 1].Some? && long[i - 1].Some? && short[i].Some? && long[i].Some?
  }

  /** The short average was at or below the long one and is now strictly above it. */
  predicate CrossesUp(short: seq<Option<real>>, long: seq<Option<real>>, i: int)
    requires 1 <= i < |short| && i < |long|
  {
    DefinedAround(short, long, i)
    && short[i - 1].value <= long[i - 1].value && short[i].value > long[i].value
  }

  /** The short average was at or above the long one and is now strictly below it. */
  predicate CrossesDown(short: seq<Option<real>>, long: seq<Option<real>>, i: int)
    requires 1 <= i < |short| && i < |long|
  {
    DefinedAround(short, long, i)
    && short[i - 1].value >= long[i - 1].value && short[i].value < long[i].value
  }

  /** The decision taken at one index from the previous and current averages. */
  function Classify(shortPrev: Option<real>, longPrev: Option<real>, shortCur: Option<real>, longCur: Option<real>): Signal {
    if shortCur.None? || longCur.None? || shortPrev.None? || longPrev.None? then Hold
    else if shortPrev.value <= longPrev.value && shortCur.value > longCur.value then Buy
    else if shortPrev.value >= longPrev.value && shortCur.value < longCur.value then Sell
    else Hold
  }

  /**
   Crossover signals for two index-aligned average series. Index 0 has no
   predecessor and is always HOLD; an empty input still yields one HOLD.
   The long series is only read where the short average is defined; the
   precondition asks for it to be at least as long as the short one
   whenever there is more than one point.
   */
  function DetectCrossover(short: seq<Option<real>>, long: seq<Option<real>>): (r: seq<Signal>)
    requires |short| <= 1 || |short| <= |long|
    ensures |r| == if |short| == 0 then 1 else |short|
    ensures r[0] == Hold
    ensures forall i :: 1 <= i < |short| ==> (r[i] == Buy <==> CrossesUp(short, long, i))
    ensures forall i :: 1 <= i < |short| ==> (r[i] == Sell <==> CrossesDown(short, long, i))
    ensures forall i :: 1 <= i < |short| && !DefinedAround(short, long, i) ==> r[i] == Hold
  {
    if |short| <= 1 then [Hold]
    else [Hold] + seq(|short| - 1, j requires 0 <= j < |short| - 1 =>
                        Classify(short[j], long[j], short[j + 1], long[j + 1]))
  }

  /** A BUY and a SELL are never emitted at the same index. */
  lemma BuyAndSellExclusive(short: seq<Option<real>>, long: seq<Option<real>>, i: int)
    requires 1 <= i < |short| && i < |long|
    ensures !(CrossesUp(short, long, i) && CrossesDown(short, long, i))
  {
  }

  /**
   Exchanging the roles of the two series turns every BUY into a SELL and
   every SELL into a BUY: the tie rule is symmetric.
   */
  lemma CrossoverSwapMirrors(short: seq<Option<real>>, long: seq<Option<real>>)
    requires |short| == |long|
    ensures var r := DetectCrossover(short, long);
            var m := DetectCrossover(long, short);
            |r| == |m| &&
            forall i :: 0 <= i < |r| ==>
              (r[i] == Buy <==> m[i] == Sell) && (r[i] == Sell <==> m[i] == Buy)
  {
    var r := DetectCrossover(short, long);
    var m := DetectCrossover(long, short);
    forall i | 1 <= i < |r|
      ensures (r[i] == Buy <==> m[i] == Sell) && (r[i] == Sell <==> m[i] == Buy)
    {
      assert CrossesUp(short, long, i) <==> CrossesDown(long, short, i);
      assert CrossesDown(short, long, i) <==> CrossesUp(long, short, i);
    }
  }

  /** A tie followed by an upward break is a BUY at index 3. */
  lemma CrossoverExample()
    ensures DetectCrossover([Some(1.0), Some(1.0), Some(1.0), Some(3.0), Some(3.0)],
                            [Some(2.0), Some(2.0), Some(2.0), Some(2.0), Some(2.0)])
         == [Hold, Hold, Hold, Buy, Hold]
  {
  }
}

=== FILE: strategy.dfy ===
/**
 The batch moving-average crossover strategy of trading_strategy.py:
 configuration, validation of the historical table, per-ticker signal
 generation and the profit/loss report.
 */
module Strategy {
  import opened Prelude
  import opened Signals
  import opened Accounting
  import Settings

  datatype Config = Config(shortPeriod: int, longPeriod: int)

  datatype StrategyError =
    | PeriodsOutOfOrder
    | MissingColumns(columns: seq<string>)
    | NonPositivePrice

  /** Python's `arg or default` on an optional integer: None and 0 are both falsy. */
  function OrDefault(arg: Option<int>, default: int): (v: int)
    ensures (arg.None? || arg == Some(0)) ==> v == default
    ensures arg.Some? && arg.value != 0 ==> v == arg.value
  {
    if arg.None? || arg.value == 0 then default else arg.value
  }

  /** The constructor: falsy periods take the configured defaults, and the short period must be below the long one. */
  function NewStrategy(shortArg: Option<int>, longArg: Option<int>): (r: Result<Config, StrategyError>)
    ensures r.Ok? ==> r.value.shortPeriod < r.value.longPeriod
    ensures r.Ok? ==> (r.value.shortPeriod == OrDefault(shortArg, Settings.ShortMaPeriod)
                       && r.value.longPeriod == OrDefault(longArg, Settings.LongMaPeriod))
    ensures r.Err? ==> (r.error == PeriodsOutOfOrder
                        && OrDefault(shortArg, Settings.ShortMaPeriod) >= OrDefault(longArg, Settings.LongMaPeriod))
  {
    var short := OrDefault(shortArg, Settings.ShortMaPeriod);
    var long := OrDefault(longArg, Settings.LongMaPeriod);
    if short >= long then Err(PeriodsOutOfOrder) else Ok(Config(short, long))
  }

  /** The defaults (50, 200) are accepted whether the arguments are absent or zero; a short period of 200 is refused. */
  lemma NewStrategyExamples()
    ensures NewStrategy(None, None) == Ok(Config(50, 200))
    ensures NewStrategy(Some(0), Some(0)) == Ok(Config(50, 200))
    ensures NewStrategy(Some(200), None) == Err(PeriodsOutOfOrder)
    ensures NewStrategy(Some(-5), None) == Ok(Config(-5, 200))
  {
  }

  // ---------------------------------------------------------------- loading

  /** A row of the historical table; a missing price is `None`. */
  datatype RawRow = RawRow(ticker: string, date: int, price: Option<real>)

  /** The table as read: its column names and its rows, already in (ticker, date) order. */
  datatype Table = Table(columns: seq<string>, rows: seq<RawRow>)

  const RequiredColumns: seq<string> := ["ticker", "date", "price"]

  /** The names of `required` absent from `columns`, in `required` order. */
  function MissingFrom(required: seq<string>, columns: seq<string>): (m: seq<string>)
    ensures |m| <= |required|
    ensures forall c :: c in m <==> c in required && c !in columns
  {
    if |required| == 0 then []
    else
      var last := required[|required| - 1];
      MissingFrom(required[..|required| - 1], columns) + (if last in columns then [] else [last])
  }

  /** Forward fill carrying `last` in: each missing value takes the most recent present one. */
  function FillFrom(last: Option<real>, s: seq<Option<real>>): (r: seq<Option<real>>)
    ensures |r| == |s|
    ensures forall k :: 0 <= k < |s| && s[k].Some? ==> r[k] == s[k]
    ensures |s| > 0 && s[0].None? ==> r[0] == last
    ensures forall k :: 1 <= k < |s| && s[k].None? ==> r[k] == r[k - 1]
    decreases |s|
  {
    if |s| == 0 then []
    else
      var v := if s[0].Some? then s[0] else last;
      [v] + FillFrom(v, s[1..])
  }

  /** `ffill()`: nothing is carried in, so leading missing values stay missing. */
  function ForwardFill(s: seq<Option<real>>): (r: seq<Option<real>>)
    ensures |r| == |s|
    ensures forall k :: 0 <= k < |s| && s[k].Some? ==> r[k] == s[k]
    ensures |s| > 0 && s[0].None? ==> r[0].None?
    ensures forall k :: 1 <= k < |s| && s[k].None? ==> r[k] == r[k - 1]
  {
    FillFrom(None, s)
  }

  /** Every present value is positive; NaN compares false with `<= 0`, so missing values pass. */
  predicate AllPositive(s: seq<Option<real>>) {
    forall k :: 0 <= k < |s| ==> s[k].Some? ==> s[k].value > 0.0
  }

  lemma {:induction false} FillFromKeepsPositive(last: Option<real>, s: seq<Option<real>>)
    requires last.Some? ==> last.value > 0.0
    ensures AllPositive(FillFrom(last, s)) <==> AllPositive(s)
    decreases |s|
  {
    if |s| > 0 && s[0].Some? && s[0].value <= 0.0 {
      assert FillFrom(last, s)[0] == s[0];
    } else if |s| > 0 {
      var v := if s[0].Some? then s[0] else last;
      FillFromKeepsPositive(v, s[1..]);
      var r := FillFrom(last, s);
      assert r == [v] + FillFrom(v, s[1..]);
      if AllPositive(s[1..]) && (s[0].Some? ==> s[0].value > 0.0) {
        assert AllPositive(FillFrom(v, s[1..]));
        forall k | 0 <= k < |r| && r[k].Some?
          ensures r[k].value > 0.0
        {
          if k > 0 { assert r[k] == FillFrom(v, s[1..])[k - 1]; }
        }
      }
      if AllPositive(r) {
        forall k | 0 <= k < |s| - 1 && s[1..][k].Some?
          ensures s[1..][k].value > 0.0
        {
          assert FillFrom(v, s[1..])[k] == r[k + 1];
        }
      }
    }
  }

  /** Forward filling never creates or removes a non-positive price. */
  lemma ForwardFillKeepsPositive(s: seq<Option<real>>)
    ensures AllPositive(ForwardFill(s)) <==> AllPositive(s)
  {
    FillFromKeepsPositive(None, s);
  }

  /** A value is missing after the fill exactly when no value up to it was present. */
  lemma {:induction false} FillFromLeadingGaps(s: seq<Option<real>>, k: int)
    requires 0 <= k < |s|
    ensures ForwardFill(s)[k].None? <==> forall m :: 0 <= m <= k ==> s[m].None?
  {
    if k > 0 {
      FillFromLeadingGaps(s, k - 1);
      if s[k].None? {
        assert ForwardFill(s)[k] == ForwardFill(s)[k - 1];
      }
    }
  }

  function PricesOfRaw(rows: seq<RawRow>): (p: seq<Option<real>>)
    ensures |p| == |rows|
    ensures forall k :: 0 <= k < |rows| ==> p[k] == rows[k].price
  {
    seq(|rows|, k requires 0 <= k < |rows| => rows[k].price)
  }

  /**
   `load_historical_data` after parsing: refuse a table missing any of the
   required columns (naming them), forward-fill missing prices, then refuse
   any non-positive price.
   */
  function LoadHistoricalData(t: Table): (r: Result<seq<RawRow>, StrategyError>)
    ensures (r.Err? && r.error.MissingColumns?) <==> exists c :: c in RequiredColumns && c !in t.columns
    ensures r.Err? && r.error.MissingColumns? ==>
              forall c :: c in r.error.columns <==> c in RequiredColumns && c !in t.columns
    ensures (forall c :: c in RequiredColumns ==> c in t.columns) ==>
              (r == Err(NonPositivePrice) <==> !AllPositive(PricesOfRaw(t.rows)))
    ensures r.Ok? ==> |r.value| == |t.rows|
    ensures r.Ok? ==> forall k :: 0 <= k < |t.rows| ==>
              && r.value[k].ticker == t.rows[k].ticker
              && r.value[k].date == t.rows[k].date
              && (t.rows[k].price.Some? ==> r.value[k].price == t.rows[k].price)
              && (r.value[k].price.Some? ==> r.value[k].price.value > 0.0)
    ensures r.Ok? ==> forall k :: 0 <= k < |t.rows| ==> r.value[k].price == ForwardFill(PricesOfRaw(t.rows))[k]
    ensures r.Ok? <==> (forall c :: c in RequiredColumns ==> c in t.columns) && AllPositive(PricesOfRaw(t.rows))
    ensures r.Err? ==> r.error.MissingColumns? || r.error == NonPositivePrice
  {
    var missing := MissingFrom(RequiredColumns, t.columns);
    if |missing| > 0 then
      assert missing[0] in missing;
      Err(MissingColumns(missing))
    else
      var filled := ForwardFill(PricesOfRaw(t.rows));
      ForwardFillKeepsPositive(PricesOfRaw(t.rows));
      if !AllPositive(filled) then Err(NonPositivePrice)
      else
        Ok(seq(|t.rows|, k requires 0 <= k < |t.rows| => t.rows[k].(price := filled[k])))
  }

  // ---------------------------------------------------------------- signals

  /** A row after loading, with its price present. */
  datatype Row = Row(ticker: string, date: int, price: real)

  /** One emitted signal; an undefined average is reported as 0. */
  datatype TradingSignal = TradingSignal(ticker: string, signal: Signal, price: real,
                                         shortMa: real, longMa: real, date: int)

  /** The signals generated for one ticker, in the order the results dictionary holds them. */
  datatype TickerSignals = TickerSignals(ticker: string, signals: seq<TradingSignal>)

  function TickersOf(rows: seq<Row>): (t: seq<string>)
    ensures |t| == |rows| && forall k :: 0 <= k < |rows| ==> t[k] == rows[k].ticker
  {
    seq(|rows|, k requires 0 <= k < |rows| => rows[k].ticker)
  }

  function PricesOf(rows: seq<Row>): (p: seq<real>)
    ensures |p| == |rows| && forall k :: 0 <= k < |rows| ==> p[k] == rows[k].price
  {
    seq(|rows|, k requires 0 <= k < |rows| => rows[k].price)
  }

  /** The index of the first occurrence of `x` in `xs`. */
  function FirstIndex(xs: seq<string>, x: string): (i: nat)
    requires x in xs
    ensures i < |xs| && xs[i] == x
    ensures forall j :: 0 <= j < i ==> xs[j] != x
  {
    var init := xs[..|xs| - 1];
    if x in init then FirstIndex(init, x) else |xs| - 1
  }

  /** Every value of `r` occurs in `xs`, and `r` lists them in order of first occurrence there. */
  predicate InFirstAppearanceOrder(r: seq<string>, xs: seq<string>) {
    && (forall k :: 0 <= k < |r| ==> r[k] in xs)
    && (forall a, b :: 0 <= a < b < |r| ==> FirstIndex(xs, r[a]) < FirstIndex(xs, r[b]))
  }

  /** The distinct values of `xs` in order of first appearance (what `unique()` returns). */
  function Distinct(xs: seq<string>): (r: seq<string>)
    ensures forall x :: x in r <==> x in xs
    ensures forall a, b :: 0 <= a < b < |r| ==> r[a] != r[b]
    ensures InFirstAppearanceOrder(r, xs)
  {
    if |xs| == 0 then []
    else
      var init := xs[..|xs| - 1];
      var last := xs[|xs| - 1];
      assert xs == init + [last];
      Distinct(init) + (if last in init then [] else [last])
  }

  /** The rows of one ticker, in table order. */
  function RowsOf(rows: seq<Row>, ticker: string): (r: seq<Row>)
    ensures |r| <= |rows|
    ensures forall k :: 0 <= k < |r| ==> r[k].ticker == ticker
  {
    if |rows| == 0 then []
    else
      var last := rows[|rows| - 1];
      RowsOf(rows[..|rows| - 1], ticker) + (if last.ticker == ticker then [last] else [])
  }

  /** The indices of the BUY and SELL entries, ascending. */
  function ActionIndices(sig: seq<Signal>): (idx: seq<nat>)
    ensures forall k :: 0 <= k < |idx| ==> idx[k] < |sig| && sig[idx[k]] != Hold
    ensures forall a, b :: 0 <= a < b < |idx| ==> idx[a] < idx[b]
    ensures forall i :: 0 <= i < |sig| && sig[i] != Hold ==> i in idx
  {
    if |sig| == 0 then []
    else
      var n := |sig| - 1;
      ActionIndices(sig[..n]) + (if sig[n] != Hold then [n] else [])
  }

  /** The crossover signals of one ticker's price series under `cfg`. */
  function Crossovers(cfg: Config, prices: seq<real>): (sig: seq<Signal>)
    ensures |prices| > 0 ==> |sig| == |prices|
    ensures |sig| > 0 && sig[0] == Hold
  {
    DetectCrossover(MovingAverage(prices, cfg.shortPeriod), MovingAverage(prices, cfg.longPeriod))
  }

  /**
   The signal list of one ticker: one record per BUY or SELL index, in
   index order, carrying that index's price, date and averages.
   */
  function SignalsFor(cfg: Config, ticker: string, rows: seq<Row>): (r: seq<TradingSignal>)
    ensures var idx := ActionIndices(Crossovers(cfg, PricesOf(rows)));
            && |r| == |idx|
            && forall k :: 0 <= k < |r| ==>
                 && 1 <= idx[k] < |rows|
                 && r[k].ticker == ticker
                 && r[k].signal == Crossovers(cfg, PricesOf(rows))[idx[k]]
                 && r[k].price == rows[idx[k]].price
                 && r[k].date == rows[idx[k]].date
    ensures forall k :: 0 <= k < |r| ==> r[k].signal != Hold
  {
    var prices := PricesOf(rows);
    var sig := Crossovers(cfg, prices);
    var idx := ActionIndices(sig);
    assert forall k :: 0 <= k < |idx| ==> idx[k] != 0;
    seq(|idx|, k requires 0 <= k < |idx| =>
      var i := idx[k];
      TradingSignal(ticker, sig[i], prices[i], AverageAt(prices, cfg.shortPeriod, i),
                    AverageAt(prices, cfg.longPeriod, i), rows[i].date))
  }

  /** The moving average at index `i`, or 0 where it is undefined (the row would not be a crossover). */
  function AverageAt(prices: seq<real>, period: int, i: nat): real
    requires i < |prices|
  {
    MovingAverage(prices, period)[i].GetOr(0.0)
  }

  /** Every record carries the two moving averages at its row, and both are defined there. */
  lemma SignalsForAverages(cfg: Config, ticker: string, rows: seq<Row>, k: int)
    requires 0 <= k < |SignalsFor(cfg, ticker, rows)|
    ensures var r := SignalsFor(cfg, ticker, rows);
            var i := ActionIndices(Crossovers(cfg, PricesOf(rows)))[k];
            && MovingAverage(PricesOf(rows), cfg.shortPeriod)[i] == Some(r[k].shortMa)
            && MovingAverage(PricesOf(rows), cfg.longPeriod)[i] == Some(r[k].longMa)
  {
    var prices := PricesOf(rows);
    var i := ActionIndices(Crossovers(cfg, prices))[k];
    assert DefinedAround(MovingAverage(prices, cfg.shortPeriod), MovingAverage(prices, cfg.longPeriod), i);
  }

  /** Signals of a list are listed in the order their rows appear. */
  lemma SignalsInRowOrder(cfg: Config, ticker: string, rows: seq<Row>, a: int, b: int)
    requires 0 <= a < b < |SignalsFor(cfg, ticker, rows)|
    ensures var idx := ActionIndices(Crossovers(cfg, PricesOf(rows)));
            idx[a] < idx[b]
  {
  }

  /** The tickers of the entries, in order. */
  function Names(entries: seq<TickerSignals>): seq<string> {
    seq(|entries|, k requires 0 <= k < |entries| => entries[k].ticker)
  }

  /** The entry the loop of `calculate_signals` records for ticker `t`. */
  function EntryFor(cfg: Config, rows: seq<Row>, t: string): TickerSignals {
    TickerSignals(t, SignalsFor(cfg, t, RowsOf(rows, t)))
  }

  /** The tickers of `ts` that have at least `longPeriod` rows: the ones the loop does not skip. */
  function Eligible(cfg: Config, rows: seq<Row>, ts: seq<string>): (e: seq<string>)
    ensures |e| <= |ts|
    ensures forall t :: t in e <==> t in ts && |RowsOf(rows, t)| >= cfg.longPeriod
    ensures (forall a, b :: 0 <= a < b < |ts| ==> ts[a] != ts[b]) ==>
              forall a, b :: 0 <= a < b < |e| ==> e[a] != e[b]
  {
    if |ts| == 0 then []
    else
      var init := ts[..|ts| - 1];
      var t := ts[|ts| - 1];
      assert ts == init + [t];
      Eligible(cfg, rows, init) + (if |RowsOf(rows, t)| >= cfg.longPeriod then [t] else [])
  }

  /** Skipping tickers keeps the others in the order they came in. */
  lemma {:induction false} EligibleKeepsOrder(cfg: Config, rows: seq<Row>, ts: seq<string>, xs: seq<string>)
    requires InFirstAppearanceOrder(ts, xs)
    ensures InFirstAppearanceOrder(Eligible(cfg, rows, ts), xs)
  {
    if |ts| > 0 {
      var init := ts[..|ts| - 1];
      var t := ts[|ts| - 1];
      OrderOfPrefix(ts, xs);
      EligibleKeepsOrder(cfg, rows, init, xs);
      var ei := Eligible(cfg, rows, init);
      if |RowsOf(rows, t)| >= cfg.longPeriod {
        forall a | 0 <= a < |ei|
          ensures FirstIndex(xs, ei[a]) < FirstIndex(xs, t)
        {
          assert ei[a] in init;
          var i :| 0 <= i < |init| && init[i] == ei[a];
          assert ts[i] == ei[a];
        }
        OrderOfSnoc(ei, t, xs);
      }
    }
  }

  /** Dropping the last value keeps the order. */
  lemma OrderOfPrefix(ts: seq<string>, xs: seq<string>)
    requires |ts| > 0 && InFirstAppearanceOrder(ts, xs)
    ensures InFirstAppearanceOrder(ts[..|ts| - 1], xs)
  {
    assert forall k :: 0 <= k < |ts| - 1 ==> ts[..|ts| - 1][k] == ts[k];
  }

  /** Appending a value that first appears after all the others keeps the order. */
  lemma OrderOfSnoc(e: seq<string>, t: string, xs: seq<string>)
    requires InFirstAppearanceOrder(e, xs) && t in xs
    requires forall a :: 0 <= a < |e| ==> FirstIndex(xs, e[a]) < FirstIndex(xs, t)
    ensures InFirstAppearanceOrder(e + [t], xs)
  {
    var r := e + [t];
    assert forall k :: 0 <= k < |e| ==> r[k] == e[k];
  }

  /**
   `calculate_signals`: one entry per distinct ticker, in order of first
   appearance, for exactly the tickers with at least `longPeriod` rows;
   each entry holds the signal list of that ticker's rows.
   */
  function CalculateSignals(cfg: Config, rows: seq<Row>): (r: seq<TickerSignals>)
    ensures forall k :: 0 <= k < |r| ==>
              r[k].ticker in TickersOf(rows) && |RowsOf(rows, r[k].ticker)| >= cfg.longPeriod
    ensures forall t :: t in TickersOf(rows) ==> (t in Names(r) <==> |RowsOf(rows, t)| >= cfg.longPeriod)
    ensures forall a, b :: 0 <= a < b < |r| ==> r[a].ticker != r[b].ticker
    ensures forall k :: 0 <= k < |r| ==> r[k] == EntryFor(cfg, rows, r[k].ticker)
  {
    EntriesFor(cfg, rows, Eligible(cfg, rows, Distinct(TickersOf(rows))))
  }

  /** The entries follow the order in which their tickers first appear in the table. */
  lemma CalculateSignalsOrder(cfg: Config, rows: seq<Row>)
    ensures InFirstAppearanceOrder(Names(CalculateSignals(cfg, rows)), TickersOf(rows))
  {
    EligibleKeepsOrder(cfg, rows, Distinct(TickersOf(rows)), TickersOf(rows));
  }

  /** The entries for `names`, one per name, in the same order. */
  function EntriesFor(cfg: Config, rows: seq<Row>, names: seq<string>): (e: seq<TickerSignals>)
    ensures |e| == |names| && Names(e) == names
    ensures forall k :: 0 <= k < |e| ==> e[k] == EntryFor(cfg, rows, names[k])
  {
    var e := seq(|names|, k requires 0 <= k < |names| => EntryFor(cfg, rows, names[k]));
    assert forall k :: 0 <= k < |names| ==> Names(e)[k] == e[k].ticker == names[k];
    e
  }

  /** Every emitted signal is a BUY or SELL of the entry's own ticker, taken from that ticker's rows. */
  lemma CalculateSignalsContents(cfg: Config, rows: seq<Row>)
    ensures var r := CalculateSignals(cfg, rows);
            forall k :: 0 <= k < |r| ==> r[k].signals == SignalsFor(cfg, r[k].ticker, RowsOf(rows, r[k].ticker))
    ensures var r := CalculateSignals(cfg, rows);
            forall k, j :: 0 <= k < |r| && 0 <= j < |r[k].signals| ==>
              r[k].signals[j].ticker == r[k].ticker && r[k].signals[j].signal != Hold
  {
    var r := CalculateSignals(cfg, rows);
    forall k, j | 0 <= k < |r| && 0 <= j < |r[k].signals|
      ensures r[k].signals[j].ticker == r[k].ticker && r[k].signals[j].signal != Hold
    {
      assert r[k] == EntryFor(cfg, rows, r[k].ticker);
    }
  }

  // ---------------------------------------------------------------- report

  datatype Report = Report(ticker: string, totalTrades: nat, totalPnl: real,
                           winning: nat, losing: nat, winRate: real,
                           signals: seq<TradingSignal>)

  /** Percentage of closed trades that won; 0 when nothing closed. */
  function WinRate(winning: nat, losing: nat): (rate: real)
    ensures 0.0 <= rate <= 100.0
    ensures rate == 100.0 <==> winning > 0 && losing == 0
    ensures rate == 0.0 <==> winning == 0
    ensures winning + losing > 0 ==> rate * ((winning + losing) as real) == 100.0 * (winning as real)
  {
    var closed := winning + losing;
    if closed > 0 then (winning as real) / (closed as real) * 100.0 else 0.0
  }

  function ToTrades(signals: seq<TradingSignal>): (t: seq<Trade>)
    ensures |t| == |signals|
    ensures forall k :: 0 <= k < |signals| ==> t[k] == Trade(signals[k].signal, signals[k].price)
  {
    seq(|signals|, k requires 0 <= k < |signals| => Trade(signals[k].signal, signals[k].price))
  }

  /**
   The report of one non-empty signal list. Its `totalTrades` is the number
   of signals, not the number of closed trades, so it always exceeds
   winning + losing.
   */
  function ReportFor(e: TickerSignals): (r: Report)
    requires |e.signals| > 0
    ensures r.ticker == e.ticker && r.signals == e.signals
    ensures r.totalTrades == |e.signals|
    ensures r.winning + r.losing < r.totalTrades
    ensures 0.0 <= r.winRate <= 100.0
    ensures r.winRate == WinRate(r.winning, r.losing)
    ensures (r.totalPnl, r.winning, r.losing) == CalculateProfitLoss(ToTrades(e.signals))
    ensures r.winning == 0 ==> r.totalPnl <= 0.0
  {
    var (pnl, w, l) := CalculateProfitLoss(ToTrades(e.signals));
    Report(e.ticker, |e.signals|, pnl, w, l, WinRate(w, l), e.signals)
  }

  function EntriesOf(reports: seq<Report>): (e: seq<TickerSignals>)
    ensures |e| == |reports|
    ensures forall k :: 0 <= k < |reports| ==> e[k] == TickerSignals(reports[k].ticker, reports[k].signals)
  {
    seq(|reports|, k requires 0 <= k < |reports| => TickerSignals(reports[k].ticker, reports[k].signals))
  }

  /** The indices of the entries with a non-empty signal list, in increasing order. */
  function NonEmptyIndices(entries: seq<TickerSignals>): (idx: seq<nat>)
    ensures forall k :: 0 <= k < |idx| ==> idx[k] < |entries| && |entries[idx[k]].signals| > 0
    ensures forall a, b :: 0 <= a < b < |idx| ==> idx[a] < idx[b]
    ensures forall i :: 0 <= i < |entries| && |entries[i].signals| > 0 ==> i in idx
  {
    if |entries| == 0 then []
    else
      var n := |entries| - 1;
      NonEmptyIndices(entries[..n]) + (if |entries[n].signals| > 0 then [n] else [])
  }

  /** `generate_report`: one report per entry with a non-empty signal list, in entry order. */
  function GenerateReport(entries: seq<TickerSignals>): (r: seq<Report>)
    ensures var idx := NonEmptyIndices(entries);
            |r| == |idx| && forall k :: 0 <= k < |r| ==> r[k] == ReportFor(entries[idx[k]])
    ensures |r| <= |entries|
    ensures forall k :: 0 <= k < |r| ==> 0.0 <= r[k].winRate <= 100.0
  {
    var idx := NonEmptyIndices(entries);
    IndicesFit(idx, |entries|);
    seq(|idx|, k requires 0 <= k < |idx| => ReportFor(entries[idx[k]]))
  }

  /** The reports stand for exactly the entries with signals, each computed from its own entry. */
  lemma GenerateReportMembers(entries: seq<TickerSignals>)
    ensures var r := GenerateReport(entries);
            && (forall e :: e in EntriesOf(r) <==> e in entries && |e.signals| > 0)
            && (forall k :: 0 <= k < |r| ==> r[k] == ReportFor(TickerSignals(r[k].ticker, r[k].signals)))
  {
    var r := GenerateReport(entries);
    var idx := NonEmptyIndices(entries);
    var es := EntriesOf(r);
    forall k | 0 <= k < |r|
      ensures es[k] == entries[idx[k]]
    {
    }
    forall i | 0 <= i < |entries| && |entries[i].signals| > 0
      ensures entries[i] in es
    {
      var k :| 0 <= k < |idx| && idx[k] == i;
      assert es[k] == entries[i];
    }
  }

  /** A strictly increasing sequence of indices below `n` has at most `n` elements. */
  lemma {:induction false} IndicesFit(idx: seq<nat>, n: nat)
    requires forall k :: 0 <= k < |idx| ==> idx[k] < n
    requires forall a, b :: 0 <= a < b < |idx| ==> idx[a] < idx[b]
    ensures |idx| <= n
    decreases n
  {
    if |idx| > 0 {
      var init := idx[..|idx| - 1];
      assert forall k :: 0 <= k < |init| ==> init[k] < idx[|idx| - 1];
      IndicesFit(init, idx[|idx| - 1]);
    }
  }
}

=== FILE: tracking.dfy ===
/**
 `calculate_percentage_change` and the `PriceTracker` of utils.py: a
 per-ticker window of (price, time) points trimmed to the hour before each
 inserted point, and a significance test over the last minute.
 Times are whole microseconds, the resolution of the source's datetimes;
 the wall clock is the explicit parameter `now`.
 */
module PriceTracking {
  import opened Prelude

  const OneMinute: int := 60 * 1_000_000
  const OneHour: int := 60 * OneMinute

  /** Percentage change from `oldPrice` to `newPrice`; 0 when the old price is 0. */
  function PercentageChange(oldPrice: real, newPrice: real): (r: real)
    ensures oldPrice == 0.0 ==> r == 0.0
    ensures oldPrice != 0.0 ==> r * oldPrice == (newPrice - oldPrice) * 100.0
  {
    if oldPrice == 0.0 then 0.0 else ((newPrice - oldPrice) / oldPrice) * 100.0
  }

  /** From a positive price the change is positive, zero or negative exactly as the price rises, stays or falls. */
  lemma PercentageChangeSign(oldPrice: real, newPrice: real)
    requires oldPrice > 0.0
    ensures PercentageChange(oldPrice, newPrice) > 0.0 <==> newPrice > oldPrice
    ensures PercentageChange(oldPrice, newPrice) == 0.0 <==> newPrice == oldPrice
    ensures PercentageChange(oldPrice, newPrice) < 0.0 <==> newPrice < oldPrice
  {
    var r := PercentageChange(oldPrice, newPrice);
    assert r * oldPrice == (newPrice - oldPrice) * 100.0;
    if r > 0.0 { assert r * oldPrice > 0.0; }
    if r < 0.0 { assert r * oldPrice < 0.0; }
  }

  datatype Point = Point(price: real, time: int)

  datatype Tracker = Tracker(threshold: real, history: map<string, seq<Point>>)

  /** A fresh tracker; the library default threshold is 2.0 percent. */
  function NewTracker(threshold: real): (t: Tracker)
    ensures t.threshold == threshold && t.history == map[]
  {
    Tracker(threshold, map[])
  }

  /** The points of `w` whose time is at or after `cutoff`, in their original order. */
  function Since(w: seq<Point>, cutoff: int): (r: seq<Point>)
    ensures |r| <= |w|
    ensures forall k :: 0 <= k < |r| ==> r[k].time >= cutoff
  {
    if |w| == 0 then []
    else Since(w[..|w| - 1], cutoff) + (if w[|w| - 1].time >= cutoff then [w[|w| - 1]] else [])
  }

  /** Filtering distributes over concatenation, so it keeps insertion order. */
  lemma {:induction false} SinceConcat(a: seq<Point>, b: seq<Point>, cutoff: int)
    ensures Since(a + b, cutoff) == Since(a, cutoff) + Since(b, cutoff)
  {
    if |b| == 0 {
      assert a + b == a;
    } else {
      var init := b[..|b| - 1];
      var last := b[|b| - 1];
      SinceConcat(a, init, cutoff);
      assert (a + b)[..|a + b| - 1] == a + init;
      assert (a + b)[|a + b| - 1] == last;
      var tail := if last.time >= cutoff then [last] else [];
      assert Since(a + b, cutoff) == Since(a + init, cutoff) + tail;
      assert Since(b, cutoff) == Since(init, cutoff) + tail;
    }
  }

  /** A window with no point at or after the cutoff filters to nothing. */
  lemma {:induction false} SinceNothing(w: seq<Point>, cutoff: int)
    requires forall k :: 0 <= k < |w| ==> w[k].time < cutoff
    ensures Since(w, cutoff) == []
  {
    if |w| > 0 {
      SinceNothing(w[..|w| - 1], cutoff);
    }
  }

  /** A point appears in a filtered window iff it is in the window and recent enough. */
  lemma {:induction false} SinceMembers(w: seq<Point>, cutoff: int, p: Point)
    ensures p in Since(w, cutoff) <==> p in w && p.time >= cutoff
  {
    if |w| > 0 {
      var init := w[..|w| - 1];
      SinceMembers(init, cutoff, p);
      assert w == init + [w[|w| - 1]];
    }
  }

  /** The window `ticker` has in the tracker, empty if it has none. */
  function WindowOf(tr: Tracker, ticker: string): seq<Point> {
    if ticker in tr.history then tr.history[ticker] else []
  }

  /** A point at or after the cutoff survives the filter, at the end. */
  lemma SinceKeepsNewest(w: seq<Point>, p: Point, cutoff: int)
    requires p.time >= cutoff
    ensures Since(w + [p], cutoff) == Since(w, cutoff) + [p]
  {
    SinceConcat(w, [p], cutoff);
    assert [p][..0] == [];
  }

  /**
   `add_price`: append the point, then keep only points no older than one
   hour before the inserted timestamp. A missing timestamp means `now`.
   */
  function AddPrice(tr: Tracker, ticker: string, price: real, timestamp: Option<int>, now: int): (r: Tracker)
    ensures ticker in r.history
    ensures r.history[ticker]
         == Since(WindowOf(tr, ticker), timestamp.GetOr(now) - OneHour) + [Point(price, timestamp.GetOr(now))]
    ensures forall k :: 0 <= k < |r.history[ticker]| ==>
              r.history[ticker][k].time >= timestamp.GetOr(now) - OneHour
    ensures r.threshold == tr.threshold
    ensures r.history.Keys == tr.history.Keys + {ticker}
    ensures forall t :: t in tr.history && t != ticker ==> r.history[t] == tr.history[t]
  {
    var ts := timestamp.GetOr(now);
    var p := Point(price, ts);
    var w := Since(WindowOf(tr, ticker) + [p], ts - OneHour);
    SinceKeepsNewest(WindowOf(tr, ticker), p, ts - OneHour);
    tr.(history := tr.history[ticker := w])
  }

  /** Index of the first point at or after `cutoff`, or |w| if there is none. */
  function FirstSince(w: seq<Point>, cutoff: int): (i: nat)
    ensures i <= |w|
    ensures forall k :: 0 <= k < i ==> w[k].time < cutoff
    ensures i < |w| ==> w[i].time >= cutoff
  {
    if |w| == 0 then 0
    else if w[0].time >= cutoff then 0
    else 1 + FirstSince(w[1..], cutoff)
  }

  /** Index of the last point at or after `cutoff`, or -1 if there is none. */
  function LastSince(w: seq<Point>, cutoff: int): (j: int)
    ensures -1 <= j < |w|
    ensures forall k :: j < k < |w| ==> w[k].time < cutoff
    ensures j >= 0 ==> w[j].time >= cutoff
  {
    if |w| == 0 then -1
    else if w[|w| - 1].time >= cutoff then |w| - 1
    else LastSince(w[..|w| - 1], cutoff)
  }

  /** Splitting a window around a recent point with nothing recent before it. */
  lemma SinceFromFirst(w: seq<Point>, cutoff: int, i: int)
    requires 0 <= i < |w| && w[i].time >= cutoff
    requires forall k :: 0 <= k < i ==> w[k].time < cutoff
    ensures Since(w, cutoff) == [w[i]] + Since(w[i + 1..], cutoff)
  {
    assert w == w[..i] + ([w[i]] + w[i + 1..]);
    SinceNothing(w[..i], cutoff);
    SinceConcat(w[..i], [w[i]] + w[i + 1..], cutoff);
    SinceConcat([w[i]], w[i + 1..], cutoff);
    assert Since([w[i]], cutoff) == [w[i]];
  }

  /** Splitting a window around a recent point with nothing recent after it. */
  lemma SinceToLast(w: seq<Point>, cutoff: int, j: int)
    requires 0 <= j < |w| && w[j].time >= cutoff
    requires forall k :: j < k < |w| ==> w[k].time < cutoff
    ensures Since(w, cutoff) == Since(w[..j], cutoff) + [w[j]]
  {
    assert w == w[..j] + ([w[j]] + w[j + 1..]);
    SinceNothing(w[j + 1..], cutoff);
    SinceConcat(w[..j], [w[j]] + w[j + 1..], cutoff);
    SinceConcat([w[j]], w[j + 1..], cutoff);
    assert Since([w[j]], cutoff) == [w[j]];
  }

  /**
   The recent sub-window has at least two points exactly when the first
   and last recent indices differ, and then it starts at the first and ends
   at the last.
   */
  lemma RecentEnds(w: seq<Point>, cutoff: int)
    ensures var s := Since(w, cutoff);
            var i := FirstSince(w, cutoff);
            var j := LastSince(w, cutoff);
            && (|s| >= 2 <==> 0 <= i < j)
            && (|s| >= 2 ==> s[0] == w[i] && s[|s| - 1] == w[j])
  {
    var s := Since(w, cutoff);
    var i := FirstSince(w, cutoff);
    var j := LastSince(w, cutoff);
    if i == |w| {
      SinceNothing(w, cutoff);
    } else {
      // w[i] is recent, so the last recent index is at or after i.
      assert j >= i;
      SinceFromFirst(w, cutoff, i);
      SinceToLast(w, cutoff, j);
      var rest := w[i + 1..];
      if j == i {
        SinceNothing(rest, cutoff);
      } else {
        assert rest[j - i - 1] == w[j];
        SinceMembers(rest, cutoff, w[j]);
      }
    }
  }

  /**
   `check_significant_change`: false without at least two points for the
   ticker, or without two points in the last minute; otherwise whether the
   change from the first to the last point of that minute reaches the
   threshold in absolute value.
   */
  function CheckSignificantChange(tr: Tracker, ticker: string, now: int): (r: bool)
    ensures r ==> ticker in tr.history && |tr.history[ticker]| >= 2
  {
    if ticker !in tr.history || |tr.history[ticker]| < 2 then false
    else
      var recent := Since(tr.history[ticker], now - OneMinute);
      if |recent| < 2 then false
      else Abs(PercentageChange(recent[0].price, recent[|recent| - 1].price)) >= tr.threshold
  }

  /**
   Index-level reading of the check: it holds exactly when the first point
   at or after one minute before `now` comes strictly before the last such
   point and the change between their prices reaches the threshold.
   */
  lemma CheckSignificantChangeSpec(tr: Tracker, ticker: string, now: int)
    ensures var w := WindowOf(tr, ticker);
            var c := now - OneMinute;
            var i := FirstSince(w, c);
            var j := LastSince(w, c);
            var significant := CheckSignificantChange(tr, ticker, now);
            significant == (ticker in tr.history && 0 <= i < j
                            && Abs(PercentageChange(w[i].price, w[j].price)) >= tr.threshold)
  {
    var w := WindowOf(tr, ticker);
    RecentEnds(w, now - OneMinute);
  }
}
